=== FILE: README.md ===
# AI news digest — a Dafny model

The repository holds a daily AI-news push script in several near-identical
versions. This project models three of them:

- `ai_news_final.py` (`NewsFinal`). It runs five category crawlers. Each
  scrapes a primary site, falls back to a backup site, and finally falls back
  to a placeholder record. It then assembles a plain-text digest for a Feishu
  webhook. Its `baidu_translate` is defined but never called; it is
  modelled on its own.
- `ai_news_final_backup.py` (`NewsBackup`). It has the same five categories
  and the same digest. Every site goes through one generic link scanner,
  `get_valid_article`.
- `ai_news_english.py` (`NewsEnglish`). It collects up to three arXiv
  entries and two AI-related Hacker News stories, each with an English and a
  Chinese rendering of title and body. It tops the list up to five with fixed
  default articles.

Shared pieces:

- `Digest` holds what the two `final` versions share line for line: the
  category labels and placeholders, the primary → backup → placeholder
  chain, and the digest text.
- `Text` holds the Python string operations the scripts use (`strip`,
  `replace`, `in`, `startswith`, `join`, `str(n)`). Whitespace is Python's
  `str.isspace` set. `Visible(s)` is the non-whitespace characters of `s`
  in order; the cleaning functions are stated to keep it.
- `Provider` holds the shape of a reply from the translation service.

The model performs no I/O. The network, the HTML parser, the feed parser and the
translation service are parameters:

- A page is the list of elements or anchors a fetch yields, or an outcome
  saying the fetch raised.
- `web`, `pages` and `stories` map each URL or id to its outcome for the run.
- `service` maps each query text to the replies its requests receive.

## Model

| member | source | states |
|---|---|---|
| NewsFinal.Clean | ai_news_final.py:71-73 | The cleaned text has no `\n` or `\r` and no whitespace at either end. Only whitespace is removed: its visible characters are exactly those of the input, in order. |
| NewsFinal.CleanFixpoint | ai_news_final.py:71-73 | `clean_text` leaves a text unchanged exactly when it has no line breaks and no edge whitespace. |
| NewsFinal.CleanIdempotent | ai_news_final.py:71-73 | Cleaning twice is cleaning once. |
| NewsFinal.CleanOfUnbroken | ai_news_final.py:71-73 | On text without line breaks, `clean_text` is exactly `strip()`: no interior character is touched. |
| NewsFinal.CleanDropsBreak | ai_news_final.py:71-73 | A `\n` or `\r` anywhere is simply dropped: cleaning with it equals cleaning without it. With `CleanOfUnbroken` this fixes the result on every input. |
| NewsFinal.Translate | ai_news_final.py:42-69 | Without both credentials the input comes back and no request is made. With them, exactly one request is made. The output is the reply's first translation when there is one and the input otherwise, so it never fails. |
| Provider.Translation | ai_news_final.py:64-66 | A reply yields a translation exactly when it is a decoded object whose `trans_result` list is present and non-empty. The translation is that list's first entry. |
| NewsFinal.ResolveLink | ai_news_final.py:91-93 | An `http…` link is kept and anything else gets the site root in front. A missing `href` falls back to the page URL. With an absolute root the result is absolute and non-empty. |
| NewsFinal.ResolveLinkIdempotent | ai_news_final.py:91-93 | Resolving an already resolved link changes nothing. |
| NewsFinal.FindFirst | ai_news_final.py:85 | `find_all(..., limit=1)` finds nothing exactly when no element matches tag and class. Otherwise it finds the first matching element in document order. |
| NewsFinal.Locate | ai_news_final.py:85-88 | The `if not articles` cascade finds nothing exactly when no locator matches any element. When the first locator hits, its element wins. |
| NewsFinal.LocateFirstHit | ai_news_final.py:85-88 | When the cascade finds something, it is what the first locator that finds anything finds; every earlier locator found nothing. |
| NewsFinal.Scan | ai_news_final.py:78-103 | A failed fetch, or a page where no locator matches, yields nothing. A hit is the located element's cleaned text and its resolved link. Its title has no line breaks or edge whitespace, and its link is absolute and non-empty. |
| NewsFinal.PlansInOrder | ai_news_final.py:76-379 | The five `crawl_*` functions, with their primary and backup URLs and locators, feed the five categories in the builder's fixed order, and every site root is absolute. |
| NewsFinal.Crawl | ai_news_final.py:76-135 | A crawler's record carries its category's label. The record has a link exactly when it has a summary, and that link is absolute. |
| NewsFinal.Items | ai_news_final.py:366-379 | Always five records, in category order, each well linked, whatever the sites returned. |
| NewsFinal.BuildContent | ai_news_final.py:366-388 | The digest opens with the dated heading. It is the heading, a blank line and the five numbered blocks with only the trailing whitespace cut. |
| NewsFinal.BuildContentListsCategories | ai_news_final.py:366-388 | The digest names every category under its number `k.` and its label, whatever the sites returned. |
| Digest.Summary | ai_news_final.py:97 | The summary is `最新动态：` followed by the first 50 characters of the title (all of it when shorter) and `...`. |
| Digest.Chain | ai_news_final.py:76-135 | The primary's article wins. The backup's article is used only when the primary yielded none. Otherwise the placeholder record is used, with empty summary, link and time. |
| Digest.ChainFoundIff | ai_news_final.py:94-135 | A record has a non-empty summary exactly when one of its sources yielded an article. An empty summary means the placeholder title. |
| Digest.ChainIgnoresBackup | ai_news_final.py:94-100 | Once the primary yielded an article, the backup's outcome makes no difference. |
| Digest.BlockLines | ai_news_final.py:380-385 | A record's lines are its numbered label line and its title line. Then comes the summary line, exactly when the summary is non-empty. The link line comes last, exactly when the link is non-empty. |
| Digest.NumberedAppend | ai_news_final.py:378-386 | Numbering is positional: the blocks of `a + b` are `a`'s followed by `b`'s, numbered on from where `a` stopped. |
| Digest.NumberedAt | ai_news_final.py:378-386 | The record at index `k` is written as block `k + 1`, between all earlier and all later records. |
| Digest.Render | ai_news_final.py:375-388 | The heading opens with a visible character, so `strip()` cuts only at the end. The digest is the heading, a blank line and the numbered blocks with exactly the trailing whitespace removed, and it opens with the heading. |
| Digest.RenderShowsItem | ai_news_final.py:375-388 | Every record's numbered headline appears in the digest. The whole block of every record but the last appears too, blank line included. |
| NewsBackup.RemovePairs | ai_news_final_backup.py:48 | `replace("  ", "")` leaves no two adjacent spaces. It deletes only spaces: the visible characters are exactly those of the input, in order. |
| NewsBackup.RemovePairsFixpoint | ai_news_final_backup.py:48 | The pair deletion changes a text exactly when it has two adjacent spaces. |
| NewsBackup.BlankRun | ai_news_final_backup.py:48 | A run of `k` spaces at the start of a text shrinks to `k mod 2` spaces: an odd run keeps one space and an even run vanishes. |
| NewsBackup.RemovePairsAppend | ai_news_final_backup.py:48 | The pair deletion never reaches across a non-space character: a text not ending in a space is handled independently of what follows. |
| NewsBackup.RunInside | ai_news_final_backup.py:48 | A run of `k` spaces anywhere, between non-space characters or the ends, shrinks to `k mod 2` spaces, and the text around it is handled on its own. |
| NewsBackup.Clean | ai_news_final_backup.py:44-48 | `None` or empty gives `""`. Otherwise the result has no line breaks, no double spaces and no edge whitespace, and its visible characters are exactly those of the input, in order. |
| NewsBackup.CleanFixpoint | ai_news_final_backup.py:44-48 | `clean_text` leaves a text unchanged exactly when it has no line breaks, no double spaces and no edge whitespace. |
| NewsBackup.CleanIdempotent | ai_news_final_backup.py:44-48 | Cleaning twice is cleaning once. |
| NewsBackup.CleanOfUnbroken | ai_news_final_backup.py:44-48 | On text without line breaks, `clean_text` is the pair deletion followed by `strip()`: no other interior character is touched. |
| NewsBackup.CleanDropsBreak | ai_news_final_backup.py:44-48 | A `\n` or `\r` anywhere is simply dropped: cleaning with it equals cleaning without it. With `CleanOfUnbroken` this fixes the result on every input. |
| NewsBackup.JoinUrlAbsolute | ai_news_final_backup.py:80-82 | With an absolute domain, a completed link is absolute and ends with the original `href`. Completing it again changes nothing. |
| NewsBackup.Qualifies | ai_news_final_backup.py:75-78 | The link filter: a keyword in the `href` and a non-empty cleaned title of at least the minimum length. With no keywords nothing qualifies, and an anchor whose text is only whitespace never does. |
| NewsBackup.JoinUrl | ai_news_final_backup.py:80-81 | The three cases of completing a relative link. This contract only lists them; what they guarantee is stated by `JoinUrlAbsolute`. |
| NewsBackup.FirstQualifying | ai_news_final_backup.py:72-84 | `None` exactly when no anchor qualifies, else the cleaned title and completed link of the first qualifying anchor in document order. |
| NewsBackup.FirstQualifyingShape | ai_news_final_backup.py:75-82 | A found title is non-empty and at least the minimum length; with an absolute domain the link is absolute. |
| NewsBackup.GetValidArticle | ai_news_final_backup.py:59-88 | A raised request or an error status yields `None`. Otherwise the result is `None` exactly when no anchor qualifies, else what the link loop yields, with a title of at least the minimum length and, for an absolute domain, an absolute link. |
| NewsBackup.PlansInOrder | ai_news_final_backup.py:91-307 | The five `crawl_*` functions, with their primary and backup URLs and keywords, feed the five categories in the builder's fixed order, and every domain is absolute. |
| NewsBackup.Crawl | ai_news_final_backup.py:91-130 | A crawler's record carries its category's label. It has a link exactly when it has a summary, and that link is absolute. |
| NewsBackup.Items | ai_news_final_backup.py:297-307 | Always five records, in category order, each well linked. |
| NewsBackup.BuildContent | ai_news_final_backup.py:297-319 | The digest opens with the dated heading. It is the heading, a blank line and the five numbered blocks with only the trailing whitespace cut. |
| NewsBackup.BuildContentListsCategories | ai_news_final_backup.py:297-319 | The digest names every category under its number and label. |
| NewsEnglish.Collapse | ai_news_english.py:60 | `re.sub(r'\s+', ' ', s)` leaves only plain spaces as whitespace and never two adjacent. It is empty exactly when its input is, and starts with whitespace exactly when its input does. |
| NewsEnglish.CollapseKeepsText | ai_news_english.py:60 | Collapsing changes whitespace only: the non-whitespace characters are those of the input, in order. |
| NewsEnglish.CollapseAppend | ai_news_english.py:60 | A text that ends on a visible character collapses on its own, whatever follows it. |
| NewsEnglish.CollapseRun | ai_news_english.py:60 | A whole whitespace run between two visible stretches becomes exactly one space. |
| NewsEnglish.CollapseFixpoint | ai_news_english.py:60 | Collapsing leaves a text unchanged exactly when it already has single plain spaces only. |
| NewsEnglish.Clean | ai_news_english.py:57-60 | Empty input gives `""`. The cleaned text is at most 500 characters, collapsed, and does not start with whitespace. Its visible characters are a prefix of the input's visible characters, and all of them unless the result reached the 500-character cut. `CleanThroughCollapse` and `CleanOfCollapsedText` give the exact value. |
| NewsEnglish.CleanThroughCollapse | ai_news_english.py:57-60 | Cleaning sees its input only through `re.sub(r'\s+', ' ', ...)`: every whitespace run counts as one space, so `"a  b"` and `"a\tb"` clean like `"a b"`. |
| NewsEnglish.CleanOfCollapsedText | ai_news_english.py:57-60 | On collapsed text of any length, cleaning is `strip()` followed by the 500-character cut. With `CleanThroughCollapse` and `CollapseRun` this fixes the result on every input. |
| NewsEnglish.CleanKeepsText | ai_news_english.py:57-60 | Below the 500 cut, cleaning keeps every non-whitespace character of the input, in order. |
| NewsEnglish.CleanAgain | ai_news_english.py:57-60 | A second pass changes at most one thing: it drops the single trailing space the 500 cut can leave. |
| NewsEnglish.CleanNotIdempotent | ai_news_english.py:57-60 | `clean_text` is not idempotent: for a 499-character word with no whitespace, then a space, then any non-empty word with no whitespace, one clean gives the first word and the space, and a second clean drops that space. |
| NewsEnglish.Shorten | ai_news_english.py:74-75 | A query of at most 500 characters is sent as is. A longer one is sent as its first 500 characters followed by `...`. |
| NewsEnglish.ShortenStable | ai_news_english.py:69-75 | Re-truncating on the retry changes nothing, so both attempts send the same query. |
| NewsEnglish.ShortenKeepsLead | ai_news_english.py:103-106 | The first 100 characters, which the fallback notice shows, are untouched by the truncation. |
| NewsEnglish.Fallback | ai_news_english.py:103-106 | The notice is `【翻译服务暂不可用】`, then the input's first 100 characters, then `...`. |
| NewsEnglish.Translate | ai_news_english.py:62-106 | Input shorter than two characters comes back in both halves. Otherwise the English half is the truncated input. The Chinese half is the first attempt's translation if it has one. Failing that it is the second attempt's, and failing both the fallback notice. |
| NewsEnglish.TranslateWithRetries | ai_news_english.py:62-106 | The retry loop, step by step, computes exactly `Translate`. It makes no attempt for short input, one attempt when the first attempt answers, and two otherwise. Without credentials an attempt raises before any request is sent, and it still counts. |
| NewsEnglish.TranslateCleanKeepsEnglish | ai_news_english.py:133-134 | On cleaned text the truncation never fires: the English half is the cleaned text itself. |
| NewsEnglish.Body | ai_news_english.py:123-130 | For an arXiv URL, the abstract's text, or `""` when the page has none. For other URLs, every one of the first ten paragraphs occurs in the joined text, and no paragraphs give `""`. |
| NewsEnglish.BodyStrategy | ai_news_english.py:124-130 | The URL alone picks the strategy. For an arXiv URL the paragraphs are never read; for other URLs the abstract is never read. |
| NewsEnglish.BodyIgnoresLaterParagraphs | ai_news_english.py:129-130 | Paragraphs after the tenth never reach the body text. |
| NewsEnglish.ArticleContent | ai_news_english.py:108-140 | A failed fetch gives `Content unavailable` / `正文内容暂无法获取`. Otherwise the English half is the cleaned body, at most 500 characters. The Chinese half is the text itself when shorter than two characters. Otherwise it is the first attempt's translation, else the second's, else the fallback notice. |
| NewsEnglish.ArxivArticles | ai_news_english.py:292-306 | A failed feed contributes nothing. Otherwise the first three entries contribute, in feed order, each keeping its link and its cleaned title as English title. |
| NewsEnglish.Picks | ai_news_english.py:317-319 | The reference list: every story among the ids that has a title containing `AI` or `LLM`, in order. |
| NewsEnglish.PicksAppend | ai_news_english.py:314-330 | Picking is id by id and in order: the picks of `a + b` are those of `a` followed by those of `b`. |
| NewsEnglish.PicksComplete | ai_news_english.py:317-319 | No acceptable story is missed: the pick of the id at position `i` comes right after the picks of the earlier ids. |
| NewsEnglish.PicksPrefix | ai_news_english.py:314-330 | Scanning more ids only appends picks. |
| NewsEnglish.PickStories | ai_news_english.py:311-332 | The scanning loop returns exactly the first two acceptable stories among the first ten ids. It fetches at most ten items, and all ten unless it found two. |
| NewsEnglish.ItemPageInjective | ai_news_english.py:321 | The fallback link `https://news.ycombinator.com/item?id=<id>` determines the id: different stories get different links. |
| NewsEnglish.HnArticlesOf | ai_news_english.py:320-330 | One Hacker News article per pick, in order, linked to the story's `url` or its item page. |
| NewsEnglish.HnArticles | ai_news_english.py:308-334 | A failed top-stories request contributes nothing. The part is never more than two articles. |
| NewsEnglish.Collected | ai_news_english.py:290-334 | The two sources together give at most five articles, arXiv first. |
| NewsEnglish.BackfillStep | ai_news_english.py:343-355 | One pass of the loop as written keeps the articles as a prefix and adds at most one. It adds one exactly when `len(articles) - 3` indexes the three defaults, and that default is the one added. |
| NewsEnglish.BackfillStalls | ai_news_english.py:337-356 | As written, with fewer than three articles no number of loop passes adds anything, so the loop never exits. |
| NewsEnglish.BackfillFinishesFromThree | ai_news_english.py:337-356 | As written, from three or four articles the loop reaches five, appending the defaults from index `len - 3` on. |
| NewsEnglish.BackfillAgrees | ai_news_english.py:343-355 | Wherever the as-written step makes progress, the corrected step appends the same default. |
| NewsEnglish.Backfill | ai_news_english.py:337-356 | The corrected top-up keeps the collected articles as a prefix. It fills every missing slot up to five with a default article. It always terminates. |
| NewsEnglish.CrawlArticles | ai_news_english.py:288-357 | With the corrected top-up: exactly five articles, the collected ones first in the order found, then defaults. Every source is `arXiv`, `HackerNews` or `AI Industry`. As written, the loop never returns with fewer than three articles collected (see Findings). |

## Left out

- HTTP requests, timeouts, `time.sleep`, random delays, logging and `urllib3` warnings are not modelled. A request is reduced to its outcome.
- HTML parsing and encoding detection are parameters. A page is its list of elements (`NewsFinal`), its anchors that carry an `href` (`NewsBackup`), or its abstract and paragraph texts (`NewsEnglish`).
- Feed parsing is a parameter, given as the list of entries. A feed entry lacking `title` or `link` would abort the arXiv block midway; entries here always have both.
- Within one run, every URL, item id and translation query gets the same outcome each time it is requested. In the real scripts, repeated requests can differ. In `ai_news_final.py` the jiqizhixin page is fetched by three crawlers (lines 106, 222 and 255), and the xinzhiyuan, latepost and infoq pages by two each. The same holds for `ai_news_final_backup.py`. The model gives all fetches of one URL one outcome.
- The translation request's salt and MD5 signature, the Feishu payloads, `send_to_feishu`, `send_feishu_card`, `generate_index_html`, `get_today_date` and the environment variables are left out. The date is the `today` parameter. In `ai_news_final.py` the credentials are a parameter.
- In `ai_news_english.py` missing credentials make the signature concatenation raise inside the retry `try`. That case is the same as two raised replies, which the model covers. `send_feishu_card` checks the credentials before crawling anyway.
- A reply whose first `trans_result` entry lacks `dst` raises `KeyError`. The model represents it as a raised reply, which gives the same outcome in both versions.
- The random `hot_score` of each article is not modelled.
- The `hasattr(articles[0], "text")` guard in `crawl_basic_llm` of `ai_news_final.py` is always true for parsed tags. It is not modelled.
- A Hacker News item whose `url` key is present but `null`, or whose `title` is not a string, is not modelled. Story JSON that is not an object is modelled as a failed item fetch, which the loop skips like the source's `continue`.
- The model follows the code's limits. `clean_text` cuts at exactly 500 characters. A translation sends one query, truncated to 500 characters plus `...`. Input shorter than two characters comes back unchanged, possibly `""`. The top-up appends fixed default articles.
- Digest.RenderShowsItem: the last record's full block is not stated to appear. `strip()` removes its closing newlines, and also any whitespace its link or title ends with. `Digest.Render` states the exact text instead.

## Findings

| source | as written | input that shows it | evidently intended | confidence | as-written member | corrected member |
|---|---|---|---|---|---|---|
| ai_news_english.py:337-356 | The top-up loop appends the default at index `len(articles) - 3` only when that index is in range, so with fewer than three articles it appends nothing and loops forever. | The arXiv feed fails and Hacker News yields nothing: `articles == []`, and `len(articles) < 5` stays true on every pass. | Fill every missing slot up to five with a default article, whatever the number collected. | not executed | NewsEnglish.BackfillStalls | NewsEnglish.Backfill |

=== FILE: digest.dfy ===
/** What `ai_news_final.py` and `ai_news_final_backup.py` share line for line:
    the five news categories, the primary -> backup -> placeholder chain each
    `crawl_*` function follows, and the plain-text digest `build_feishu_content`
    assembles from the five resulting records. */
module Digest {
  import opened Options
  import opened Lists
  import opened Text

  /** An article a source yielded: its cleaned title and absolute link. */
  datatype Found = Found(title: string, link: string)

  /** A category: its display label (`type`) and the title shown when neither
      of its sources yields anything. */
  datatype Category = Category(kind: string, placeholder: string)

  /** The record each `crawl_*` function returns. */
  datatype Item = Item(kind: string, titleZh: string, summaryZh: string, link: string, time: string)

  const BasicLlm := Category("🤖 基础大模型 / 多模态", "今日暂无【基础大模型/多模态】相关信息")
  const IndustryDynamic := Category("🏢 AI 行业动态 / 应用创新", "今日暂无【AI行业动态/应用创新】相关信息")
  const AiTech := Category("🔧 AI 技术 / Agent", "今日暂无【AI技术/Agent】相关信息")
  const LlmRanking := Category("📊 大模型排行榜 / 技术前沿", "今日暂无【大模型排行榜/技术前沿】相关信息")
  const AiInnovation := Category("🚀 AI 应用创新 / 行业趋势", "今日暂无【AI应用创新/行业趋势】相关信息")

  /** The categories in the order `build_feishu_content` lists them. */
  const Categories: seq<Category> := [BasicLlm, IndustryDynamic, AiTech, LlmRanking, AiInnovation]

  // ---------------------------------------------------------------------
  // The five sites
  // ---------------------------------------------------------------------

  const Https := "https://"

  /** The root of each site, which relative links are joined to. */
  const XinzhiyuanRoot := Https + "www.xinzhiyuan.com"
  const JiqizhixinRoot := Https + "www.jiqizhixin.com"
  const LatepostRoot := Https + "www.latepost.com"
  const InfoqRoot := Https + "www.infoq.cn"
  const KnowfutureRoot := Https + "www.knowfuture.cn"

  lemma HttpsAbsolute(host: string)
    ensures StartsWith(Https + host, "http")
  {
    assert (Https + host)[..4] == Https[..4];
  }

  /** Every site root is an absolute `http` URL. */
  lemma RootsAbsolute()
    ensures StartsWith(XinzhiyuanRoot, "http") && StartsWith(JiqizhixinRoot, "http")
    ensures StartsWith(LatepostRoot, "http") && StartsWith(InfoqRoot, "http")
    ensures StartsWith(KnowfutureRoot, "http")
  {
    HttpsAbsolute("www.xinzhiyuan.com");
    HttpsAbsolute("www.jiqizhixin.com");
    HttpsAbsolute("www.latepost.com");
    HttpsAbsolute("www.infoq.cn");
    HttpsAbsolute("www.knowfuture.cn");
  }

  const SummaryPrefix := "最新动态："
  const SummaryCut := 50

  /** `f"最新动态：{title[:50]}..."`. */
  function Summary(title: string): (r: string)
    ensures |r| == |SummaryPrefix| + |Take(title, SummaryCut)| + 3
    ensures StartsWith(r, SummaryPrefix)
    ensures r[|SummaryPrefix|..|r| - 3] == Take(title, SummaryCut)
    ensures StartsWith(title, r[|SummaryPrefix|..|r| - 3])
    ensures r[|r| - 3..] == "..."
  {
    SummaryPrefix + Take(title, SummaryCut) + "..."
  }

  /** The record built when a source yielded `found`. */
  function Listed(cat: Category, found: Found, today: string): Item {
    Item(cat.kind, found.title, Summary(found.title), found.link, today)
  }

  /** The record built when no source yielded anything. */
  function Placeholder(cat: Category): Item {
    Item(cat.kind, cat.placeholder, "", "", "")
  }

  /** The fallback chain of one `crawl_*` function: the primary source's
      article when it yielded one, else the backup's, else the placeholder. */
  function Chain(cat: Category, primary: Option<Found>, backup: Option<Found>, today: string): (r: Item)
    ensures r.kind == cat.kind
    ensures primary.Some? ==> r == Listed(cat, primary.value, today)
    ensures primary.None? && backup.Some? ==> r == Listed(cat, backup.value, today)
    ensures primary.None? && backup.None? ==> r == Placeholder(cat)
  {
    match primary
    case Some(f) => Listed(cat, f, today)
    case None =>
      match backup
      case Some(f) => Listed(cat, f, today)
      case None => Placeholder(cat)
  }

  /** A record has a summary exactly when one of its two sources yielded an
      article; the placeholder is the only record with an empty summary. */
  lemma ChainFoundIff(cat: Category, primary: Option<Found>, backup: Option<Found>, today: string)
    ensures Chain(cat, primary, backup, today).summaryZh != "" <==> primary.Some? || backup.Some?
    ensures Chain(cat, primary, backup, today).summaryZh == "" ==> Chain(cat, primary, backup, today).titleZh == cat.placeholder
  {
  }

  /** The backup is never looked at once the primary yielded an article. */
  lemma ChainIgnoresBackup(cat: Category, f: Found, b1: Option<Found>, b2: Option<Found>, today: string)
    ensures Chain(cat, Some(f), b1, today) == Chain(cat, Some(f), b2, today)
  {
  }

  // ---------------------------------------------------------------------
  // The digest text
  // ---------------------------------------------------------------------

  const TitleLead := "   标题："
  const SummaryLead := "   摘要："
  const LinkLead := "   来源链接："

  function HeadLine(n: nat, item: Item): string {
    Decimal(n) + ". 【" + item.kind + "】"
  }

  /** The lines written for the record numbered `n`: its number and label,
      its title, then a summary line only when the summary is non-empty and
      a link line only when the link is non-empty. */
  function BlockLines(n: nat, item: Item): (lines: seq<string>)
    ensures |lines| == 2 + (if item.summaryZh != "" then 1 else 0) + (if item.link != "" then 1 else 0)
    ensures lines[0] == HeadLine(n, item) && StartsWith(lines[0], Decimal(n) + ". 【")
    ensures lines[1] == TitleLead + item.titleZh
    ensures (SummaryLead + item.summaryZh in lines) <==> item.summaryZh != ""
    ensures (LinkLead + item.link in lines) <==> item.link != ""
    ensures item.summaryZh != "" ==> lines[2] == SummaryLead + item.summaryZh
    ensures item.link != "" ==> lines[|lines| - 1] == LinkLead + item.link
  {
    var head := HeadLine(n, item);
    var title := TitleLead + item.titleZh;
    var summary := SummaryLead + item.summaryZh;
    var link := LinkLead + item.link;
    assert head[0] != summary[0] && head[0] != link[0];
    assert title[3] != summary[3] && title[3] != link[3] && summary[3] != link[3];
    [head, title]
      + (if item.summaryZh != "" then [summary] else [])
      + (if item.link != "" then [link] else [])
  }

  /** Each line followed by a newline. */
  function Unlines(lines: seq<string>): string {
    if lines == [] then "" else lines[0] + "\n" + Unlines(lines[1..])
  }

  /** The text of the record numbered `n`, closed by a blank line. */
  function Block(n: nat, item: Item): string {
    Unlines(BlockLines(n, item)) + "\n"
  }

  /** The texts `block(first, items[0])`, `block(first + 1, items[1])`, ...
      one after the other. */
  function Numbered(items: seq<Item>, first: nat, block: (nat, Item) -> string): string {
    if items == [] then "" else block(first, items[0]) + Numbered(items[1..], first + 1, block)
  }

  /** Numbering is positional: the text of `a + b` is that of `a` followed
      by that of `b`, numbered on from where `a` stopped. */
  lemma {:induction false} NumberedAppend(a: seq<Item>, b: seq<Item>, first: nat, block: (nat, Item) -> string)
    ensures Numbered(a + b, first, block) == Numbered(a, first, block) + Numbered(b, first + |a|, block)
  {
    if a == [] {
      assert a + b == b;
    } else {
      var h := block(first, a[0]);
      var ab := a + b;
      assert ab[0] == a[0];
      assert ab[1..] == a[1..] + b;
      NumberedAppend(a[1..], b, first + 1, block);
      Assoc(h, Numbered(a[1..], first + 1, block), Numbered(b, first + |a|, block));
    }
  }

  /** The `k`-th item (0-based) is written under number `k + 1`, after every
      earlier item and before every later one. */
  lemma NumberedAt(items: seq<Item>, k: nat, block: (nat, Item) -> string)
    requires k < |items|
    ensures Numbered(items, 1, block) == Numbered(items[..k], 1, block) + block(k + 1, items[k]) + Numbered(items[k + 1..], k + 2, block)
  {
    var rest := [items[k]] + items[k + 1..];
    assert items == items[..k] + rest;
    NumberedAppend(items[..k], rest, 1, block);
    assert rest[0] == items[k] && rest[1..] == items[k + 1..];
    var b := block(k + 1, items[k]);
    var later := Numbered(items[k + 1..], k + 2, block);
    assert Numbered(rest, k + 1, block) == b + later;
    Assoc(Numbered(items[..k], 1, block), b, later);
  }

  /** The records of `items`, numbered consecutively from `first`. */
  function Blocks(items: seq<Item>, first: nat): string {
    Numbered(items, first, Block)
  }

  /** A block opens with its headline. */
  lemma BlockOpens(n: nat, item: Item)
    ensures |HeadLine(n, item)| <= |Block(n, item)| && Block(n, item)[..|HeadLine(n, item)|] == HeadLine(n, item)
  {
    var lines := BlockLines(n, item);
    assert Unlines(lines) == lines[0] + "\n" + Unlines(lines[1..]);
    assert Block(n, item) == HeadLine(n, item) + ("\n" + Unlines(lines[1..]) + "\n");
  }

  function Heading(today: string): string {
    "📮 每日AI精选（" + today + "）"
  }

  /** The heading opens with the mailbox sign, which is not whitespace. */
  lemma HeadingOpens(today: string)
    ensures Heading(today) != [] && !IsSpace(Heading(today)[0])
  {
    var lit := "📮 每日AI精选（";
    assert lit[0] == '📮';
    assert Heading(today) == lit + (today + "）");
  }

  /** The digest text before `strip()`: the heading, a blank line, then
      the numbered blocks. */
  function Unstripped(today: string, items: seq<Item>): string {
    Heading(today) + "\n\n" + Blocks(items, 1)
  }

  /** `r` is `body` with its trailing whitespace cut off and nothing else
      changed. */
  predicate TrailingTrimmed(body: string, r: string) {
    && |r| <= |body| && r == body[..|r|]
    && SpaceBetween(body, |r|, |body|)
    && NoEdgeSpace(r)
  }

  /** `build_feishu_content` once the five records are known: the heading, a
      blank line, the numbered blocks, the whole stripped. The heading opens
      with a visible character, so `strip()` only cuts at the end. */
  function Render(today: string, items: seq<Item>): (r: string)
    ensures StartsWith(r, Heading(today))
    ensures TrailingTrimmed(Unstripped(today, items), r)
  {
    var body := Unstripped(today, items);
    StripKeepsPrefix(body, Heading(today));
    HeadingOpens(today);
    assert body[0] == Heading(today)[0];
    StripTrailing(body);
    Strip(body)
  }

  /** A record has a link exactly when it has a summary, and that link is
      absolute. */
  predicate WellLinked(item: Item) {
    (item.link == "" <==> item.summaryZh == "") && (item.link != "" ==> StartsWith(item.link, "http"))
  }

  /** A headline opens with a digit and closes with `】`. */
  lemma HeadLineShape(n: nat, item: Item)
    ensures |HeadLine(n, item)| >= 3
    ensures '0' <= HeadLine(n, item)[0] <= '9' && HeadLine(n, item)[|HeadLine(n, item)| - 1] == '】'
  {
  }

  /** A piece of the digest text that begins the text's first non-space
      character onwards and ends on a non-space character, or is followed
      by one, is still there after `strip()`. */
  lemma PieceSurvives(before: string, piece: string, after: string)
    requires before != [] && !IsSpace(before[0]) && piece != []
    requires !IsSpace(piece[|piece| - 1]) || (after != [] && !IsSpace(after[0]))
    ensures Contains(Strip(before + piece + after), piece)
  {
    var body := before + piece + after;
    var i := |before|;
    var j := i + |piece|;
    assert body[i..j] == piece;
    if !IsSpace(piece[|piece| - 1]) {
      assert body[j - 1] == piece[|piece| - 1];
      StripKeepsMiddle(body, 0, i, j, j - 1);
    } else {
      assert body[j] == after[0];
      StripKeepsMiddle(body, 0, i, j, j);
    }
  }

  lemma Regroup(a: string, b: string, c: string, d: string)
    ensures a + (b + c + d) == a + b + c + d
    ensures a + (b + c) + d == a + b + (c + d)
  {
  }

  /** A non-empty run of blocks opens with a digit, which is not whitespace. */
  lemma BlocksOpen(items: seq<Item>, first: nat)
    requires items != []
    ensures Blocks(items, first) != [] && !IsSpace(Blocks(items, first)[0])
  {
    var b := Block(first, items[0]);
    assert Blocks(items, first) == b + Blocks(items[1..], first + 1);
    BlockOpens(first, items[0]);
    HeadLineShape(first, items[0]);
    assert b[0] == HeadLine(first, items[0])[0];
  }

  /** The digest text before stripping, cut around the `k`-th record. */
  lemma RenderSplit(today: string, items: seq<Item>, k: nat) returns (before: string)
    requires k < |items|
    ensures before != [] && !IsSpace(before[0])
    ensures Render(today, items) == Strip(before + Block(k + 1, items[k]) + Blocks(items[k + 1..], k + 2))
  {
    var lead := Heading(today) + "\n\n";
    HeadingOpens(today);
    assert lead[0] == Heading(today)[0];
    before := lead + Blocks(items[..k], 1);
    assert before[0] == lead[0];
    assert Render(today, items) == Strip(Unstripped(today, items));
    assert Unstripped(today, items) == lead + Blocks(items, 1);
    NumberedAt(items, k, Block);
    Regroup(lead, Blocks(items[..k], 1), Block(k + 1, items[k]), Blocks(items[k + 1..], k + 2));
  }

  /** Every record shows up in the digest under its number: its headline
      always, and its whole block, blank line included, for every record
      but the last (whose trailing newlines `strip()` removes). */
  lemma RenderShowsItem(today: string, items: seq<Item>, k: nat)
    requires k < |items|
    ensures Contains(Render(today, items), HeadLine(k + 1, items[k]))
    ensures k + 1 < |items| ==> Contains(Render(today, items), Block(k + 1, items[k]))
  {
    var before := RenderSplit(today, items, k);
    var block := Block(k + 1, items[k]);
    var after := Blocks(items[k + 1..], k + 2);
    var head := HeadLine(k + 1, items[k]);
    BlockOpens(k + 1, items[k]);
    HeadLineShape(k + 1, items[k]);
    var tail := block[|head|..];
    assert block == head + tail;
    Regroup(before, head, tail, after);
    assert before + block + after == before + head + (tail + after);
    assert Render(today, items) == Strip(before + head + (tail + after));
    PieceSurvives(before, head, tail + after);
    if k + 1 < |items| {
      BlocksOpen(items[k + 1..], k + 2);
      PieceSurvives(before, block, after);
    }
  }
}

=== FILE: lists.dfy ===
/** Sequence helpers shared by the three script versions. */
module Lists {
  import opened Options

  /** Python's `xs[:n]` for a non-negative `n`. */
  function Take<T>(xs: seq<T>, n: nat): (r: seq<T>)
    ensures |r| == if |xs| <= n then |xs| else n
    ensures r == xs[..|r|]
  {
    if |xs| <= n then xs else xs[..n]
  }

  /** Index of the first element satisfying `p`, in order; `None` when no
      element does. This is the "scan in document order, stop at the first
      match" pattern the scripts use for `find_all(..., limit=1)` and for the
      link loop of `get_valid_article`. */
  function FirstWhere<T>(xs: seq<T>, p: T -> bool): (r: Option<nat>)
    ensures r.Some? ==> r.value < |xs| && p(xs[r.value])
    ensures r.Some? ==> forall j | 0 <= j < r.value :: !p(xs[j])
    ensures r.None? <==> forall j | 0 <= j < |xs| :: !p(xs[j])
  {
    if xs == [] then None
    else if p(xs[0]) then Some(0)
    else
      match FirstWhere(xs[1..], p)
      case None => None
      case Some(i) => Some(i + 1)
  }
}

=== FILE: news_backup.dfy ===
/** `ai_news_final_backup.py`: the same five categories and digest as
    `ai_news_final.py`, but every source is scanned by one generic rule,
    `get_valid_article`: the first link on the page whose `href` holds one of
    the source's keywords and whose cleaned text is long enough. */
module NewsBackup {
  import opened Options
  import opened Lists
  import opened Text
  import opened Digest

  // ---------------------------------------------------------------------
  // clean_text
  // ---------------------------------------------------------------------

  /** No two adjacent spaces (U+0020). */
  predicate NoDoubleBlank(s: string) {
    forall k | 0 <= k < |s| - 1 :: !(s[k] == ' ' && s[k + 1] == ' ')
  }

  /** Python's `s.replace("  ", "")`: scanning left to right, every
      non-overlapping pair of spaces is deleted. */
  function RemovePairs(s: string): (r: string)
    ensures |r| <= |s|
    ensures NoDoubleBlank(r)
    ensures forall c | c in r :: c in s
    ensures s != [] && s[0] != ' ' ==> r != [] && r[0] == s[0]
    ensures Visible(r) == Visible(s)
  {
    if |s| >= 2 && s[0] == ' ' && s[1] == ' ' then
      assert s == [' ', ' '] + s[2..];
      VisibleAppend([' ', ' '], s[2..]);
      RemovePairs(s[2..])
    else if s == [] then []
    else
      assert s == [s[0]] + s[1..];
      VisibleAppend([s[0]], s[1..]);
      VisibleAppend([s[0]], RemovePairs(s[1..]));
      [s[0]] + RemovePairs(s[1..])
  }

  /** A text without a pair of adjacent spaces is left alone. */
  lemma {:induction false} RemovePairsFixpoint(s: string)
    ensures RemovePairs(s) == s <==> NoDoubleBlank(s)
  {
    if NoDoubleBlank(s) && s != [] {
      assert NoDoubleBlank(s[1..]);
      RemovePairsFixpoint(s[1..]);
    }
  }

  function Blanks(k: nat): (r: string)
    ensures |r| == k && forall i | 0 <= i < k :: r[i] == ' '
  {
    seq(k, _ => ' ')
  }

  /** The pair rule on one run of `k` spaces leaves `k % 2` of them. */
  lemma {:induction false} BlankRun(k: nat, t: string)
    requires t == [] || t[0] != ' '
    ensures RemovePairs(Blanks(k) + t) == Blanks(k % 2) + RemovePairs(t)
  {
    var s := Blanks(k) + t;
    if k >= 2 {
      assert s[0] == ' ' && s[1] == ' ';
      assert s[2..] == Blanks(k - 2) + t;
      BlankRun(k - 2, t);
      assert (k - 2) % 2 == k % 2;
    } else if k == 1 {
      assert s[0] == ' ';
      assert s[1..] == t;
      assert RemovePairs(s) == [' '] + RemovePairs(t);
    } else {
      assert Blanks(0) + t == t;
    }
  }

  /** The pair deletion cannot reach across a non-space character: a text
      that does not end in a space is handled on its own. */
  lemma {:induction false} RemovePairsAppend(u: string, v: string)
    requires u == [] || u[|u| - 1] != ' '
    ensures RemovePairs(u + v) == RemovePairs(u) + RemovePairs(v)
    decreases |u|
  {
    if u == [] {
      assert u + v == v;
    } else if |u| >= 2 && u[0] == ' ' && u[1] == ' ' {
      assert (u + v)[0] == ' ' && (u + v)[1] == ' ';
      assert (u + v)[2..] == u[2..] + v;
      RemovePairsAppend(u[2..], v);
    } else {
      assert |u| == 1 ==> u[0] != ' ';
      assert (u + v)[0] == u[0] && (u + v)[1..] == u[1..] + v;
      assert !(|u + v| >= 2 && (u + v)[0] == ' ' && (u + v)[1] == ' ');
      RemovePairsAppend(u[1..], v);
      Assoc([u[0]], RemovePairs(u[1..]), RemovePairs(v));
    }
  }

  /** A run of `k` spaces anywhere in the text, between non-space characters
      or the ends, shrinks to `k % 2` spaces and the text around it is
      handled on its own. */
  lemma RunInside(u: string, k: nat, t: string)
    requires u == [] || u[|u| - 1] != ' '
    requires t == [] || t[0] != ' '
    ensures RemovePairs(u + Blanks(k) + t) == RemovePairs(u) + Blanks(k % 2) + RemovePairs(t)
  {
    assert u + Blanks(k) + t == u + (Blanks(k) + t);
    RemovePairsAppend(u, Blanks(k) + t);
    BlankRun(k, t);
    Assoc(RemovePairs(u), Blanks(k % 2), RemovePairs(t));
  }

  /** `strip()` cuts a slice, so it keeps the absence of double spaces. */
  lemma StripKeepsNoDoubleBlank(s: string)
    requires NoDoubleBlank(s)
    ensures NoDoubleBlank(Strip(s))
  {
    var i := StripIsSlice(s);
  }

  /** `clean_text`: `None` or empty gives `""`; otherwise delete every `\n`,
      then every `\r`, then every pair of spaces, then strip. Only
      whitespace goes: the visible characters all stay, in order. */
  function Clean(text: Option<string>): (r: string)
    ensures '\n' !in r && '\r' !in r
    ensures NoDoubleBlank(r)
    ensures NoEdgeSpace(r)
    ensures text.None? || text.value == [] ==> r == []
    ensures text.Some? ==> Visible(r) == Visible(text.value)
  {
    if text.None? || text.value == [] then []
    else
      var s := Remove(Remove(text.value, '\n'), '\r');
      RemoveContents(text.value, '\n');
      RemoveContents(Remove(text.value, '\n'), '\r');
      RemoveKeepsText(text.value, '\n');
      RemoveKeepsText(Remove(text.value, '\n'), '\r');
      StripKeepsText(RemovePairs(s));
      StripKeepsNoDoubleBlank(RemovePairs(s));
      Strip(RemovePairs(s))
  }

  /** The texts `clean_text` leaves alone are exactly those with no line
      breaks, no double spaces and no whitespace at either end. */
  lemma CleanFixpoint(t: string)
    ensures Clean(Some(t)) == t <==> ('\n' !in t && '\r' !in t && NoDoubleBlank(t) && NoEdgeSpace(t))
  {
    if '\n' !in t && '\r' !in t && NoDoubleBlank(t) && NoEdgeSpace(t) && t != [] {
      RemovePairsFixpoint(t);
      StripFixpoint(t);
    }
  }

  /** Cleaning twice is cleaning once. */
  lemma CleanIdempotent(text: Option<string>)
    ensures Clean(Some(Clean(text))) == Clean(text)
  {
    CleanFixpoint(Clean(text));
  }

  /** Without line breaks, `clean_text` deletes the pairs of spaces and
      strips: no other interior character is touched. */
  lemma CleanOfUnbroken(t: string)
    requires '\n' !in t && '\r' !in t
    ensures Clean(Some(t)) == Strip(RemovePairs(t))
  {
  }

  /** A line break anywhere is simply dropped: cleaning the text with it is
      cleaning the text without it. With `CleanOfUnbroken` this fixes the
      result of `clean_text` on every input. */
  lemma CleanDropsBreak(a: string, c: char, b: string)
    requires c == '\n' || c == '\r'
    ensures Clean(Some(a + [c] + b)) == Clean(Some(a + b))
  {
    CleanStages(a + [c] + b);
    CleanStages(a + b);
    RemoveBreaksDrop(a, c, b);
  }

  /** The three deletions and the strip, with the empty text needing no
      case of its own. */
  lemma CleanStages(t: string)
    ensures Clean(Some(t)) == Strip(RemovePairs(Remove(Remove(t, '\n'), '\r')))
  {
    if t == [] {
      assert Remove(Remove(t, '\n'), '\r') == [];
    }
  }

  // ---------------------------------------------------------------------
  // get_valid_article
  // ---------------------------------------------------------------------

  /** An `<a>` tag that has an `href`: the attribute and the tag's text. */
  datatype Anchor = Anchor(href: string, text: string)

  /** The outcome of `requests.get`: it raised, or a response arrived with
      a status code and the page's anchors in document order. */
  datatype Response = Raised | Response(status: int, anchors: seq<Anchor>)

  /** `raise_for_status()` raises for client and server errors. */
  predicate RaisesForStatus(status: int) {
    400 <= status < 600
  }

  const TitleMinLen := 5

  /** The filter of the link loop: some keyword occurs in the `href`, and the
      cleaned text is at least `minLen` long and non-empty. With no keywords
      nothing qualifies, and neither does a text of whitespace only, however
      small `minLen` is. */
  predicate Qualifies(a: Anchor, keywords: seq<string>, minLen: int): (b: bool)
    ensures b ==> keywords != [] && Visible(a.text) != []
  {
    CleanShowsText(a.text);
    && (exists k | 0 <= k < |keywords| :: Contains(a.href, keywords[k]))
    && |Clean(Some(a.text))| >= minLen
    && Clean(Some(a.text)) != ""
  }

  /** A text cleans to something non-empty only if it has a visible
      character. */
  lemma CleanShowsText(t: string)
    ensures Clean(Some(t)) != "" ==> Visible(t) != []
  {
    var c := Clean(Some(t));
    if c != [] {
      assert !IsSpace(c[0]) && Visible(c) == [c[0]] + Visible(c[1..]);
    }
  }

  /** Completing a relative link: kept when it starts with `"http"`, the
      domain prepended when it starts with `"/"`, and the domain and a `"/"`
      prepended otherwise. */
  function JoinUrl(domain: string, href: string): (r: string)
    ensures StartsWith(href, "http") ==> r == href
    ensures !StartsWith(href, "http") && StartsWith(href, "/") ==> r == domain + href
    ensures !StartsWith(href, "http") && !StartsWith(href, "/") ==> r == domain + "/" + href
  {
    if StartsWith(href, "http") then href
    else if StartsWith(href, "/") then domain + href
    else domain + "/" + href
  }

  /** The joined link ends with the `href` and starts with `"http"` whenever
      the domain does; joining it again changes nothing. */
  lemma JoinUrlAbsolute(domain: string, href: string)
    ensures StartsWith(domain, "http") ==> StartsWith(JoinUrl(domain, href), "http")
    ensures |href| <= |JoinUrl(domain, href)|
    ensures JoinUrl(domain, href)[|JoinUrl(domain, href)| - |href|..] == href
    ensures StartsWith(domain, "http") ==> JoinUrl(domain, JoinUrl(domain, href)) == JoinUrl(domain, href)
  {
    if !StartsWith(href, "http") {
      if StartsWith(href, "/") {
        assert (domain + href)[|domain|..] == href;
        if StartsWith(domain, "http") {
          assert (domain + href)[..4] == domain[..4];
        }
      } else {
        assert (domain + "/" + href)[|domain| + 1..] == href;
        if StartsWith(domain, "http") {
          assert (domain + "/" + href)[..4] == domain[..4];
        }
      }
    }
  }

  function FoundOf(a: Anchor, domain: string): Found {
    Found(Clean(Some(a.text)), JoinUrl(domain, a.href))
  }

  /** The link loop of `get_valid_article`: the first anchor in document
      order that qualifies, as its cleaned title and completed link, or
      `None` when none does. */
  function FirstQualifying(anchors: seq<Anchor>, domain: string, keywords: seq<string>, minLen: int): (r: Option<Found>)
    ensures r.None? <==> forall i | 0 <= i < |anchors| :: !Qualifies(anchors[i], keywords, minLen)
    ensures r.Some? ==> exists i | 0 <= i < |anchors| ::
      && Qualifies(anchors[i], keywords, minLen)
      && (forall j | 0 <= j < i :: !Qualifies(anchors[j], keywords, minLen))
      && r.value == FoundOf(anchors[i], domain)
  {
    match FirstWhere(anchors, a => Qualifies(a, keywords, minLen))
    case None =>
      assert forall i | 0 <= i < |anchors| :: !Qualifies(anchors[i], keywords, minLen);
      None
    case Some(i) =>
      assert Qualifies(anchors[i], keywords, minLen);
      Some(FoundOf(anchors[i], domain))
  }

  /** What the link loop yields has a title of at least the minimum length,
      and an absolute link when the domain is absolute. */
  lemma FirstQualifyingShape(anchors: seq<Anchor>, domain: string, keywords: seq<string>, minLen: int)
    ensures FirstQualifying(anchors, domain, keywords, minLen).Some? ==>
      (var f := FirstQualifying(anchors, domain, keywords, minLen).value;
       f.title != [] && |f.title| >= minLen && (StartsWith(domain, "http") ==> StartsWith(f.link, "http")))
  {
    match FirstWhere(anchors, a => Qualifies(a, keywords, minLen))
    case None =>
    case Some(i) =>
      assert Qualifies(anchors[i], keywords, minLen);
      JoinUrlAbsolute(domain, anchors[i].href);
  }

  /** `get_valid_article`: `None` when the request raised or the status is
      an error, otherwise what the link loop yields. */
  function GetValidArticle(resp: Response, domain: string, keywords: seq<string>, minLen: int): (r: Option<Found>)
    ensures resp.Raised? || RaisesForStatus(resp.status) ==> r.None?
    ensures resp.Response? && !RaisesForStatus(resp.status) ==>
      (r.None? <==> forall i | 0 <= i < |resp.anchors| :: !Qualifies(resp.anchors[i], keywords, minLen))
    ensures r.Some? ==> resp.Response? && r == FirstQualifying(resp.anchors, domain, keywords, minLen)
    ensures r.Some? ==> r.value.title != [] && |r.value.title| >= minLen
    ensures r.Some? && StartsWith(domain, "http") ==> StartsWith(r.value.link, "http")
  {
    match resp
    case Raised => None
    case Response(status, anchors) =>
      if RaisesForStatus(status) then None
      else
        FirstQualifyingShape(anchors, domain, keywords, minLen);
        FirstQualifying(anchors, domain, keywords, minLen)
  }

  // ---------------------------------------------------------------------
  // The five categories
  // ---------------------------------------------------------------------

  /** One call of `get_valid_article`: URL, domain, keywords. */
  datatype Site = Site(url: string, domain: string, keywords: seq<string>)

  /** One `crawl_*` function: its category and its two sites. */
  datatype Plan = Plan(category: Category, primary: Site, backup: Site)

  const XinzhiyuanUrl := XinzhiyuanRoot + "/"
  const JiqizhixinUrl := JiqizhixinRoot + "/"
  const LatepostUrl := LatepostRoot + "/"
  const InfoqUrl := InfoqRoot + "/topic/ai"
  const KnowfutureUrl := KnowfutureRoot + "/"

  const BasicLlmPlan := Plan(BasicLlm,
    Site(XinzhiyuanUrl, XinzhiyuanRoot, ["/articles/", "/detail/", "/news/"]),
    Site(JiqizhixinUrl, JiqizhixinRoot, ["/articles/", "/detail/", "/news/"]))
  const IndustryDynamicPlan := Plan(IndustryDynamic,
    Site(LatepostUrl, LatepostRoot, ["/post/", "/article/", "/detail/"]),
    Site(XinzhiyuanUrl, XinzhiyuanRoot, ["/articles/", "/detail/", "/news/"]))
  const AiTechPlan := Plan(AiTech,
    Site(InfoqUrl, InfoqRoot, ["/article/", "/detail/", "/news/"]),
    Site(JiqizhixinUrl, JiqizhixinRoot, ["/articles/", "/detail/", "/tech/"]))
  const LlmRankingPlan := Plan(LlmRanking,
    Site(JiqizhixinUrl, JiqizhixinRoot, ["/articles/", "/rank/", "/paper/", "/tech/"]),
    Site(InfoqUrl, InfoqRoot, ["/article/", "/detail/", "/research/"]))
  const AiInnovationPlan := Plan(AiInnovation,
    Site(KnowfutureUrl, KnowfutureRoot, ["/articles/", "/post/", "/detail/", "/trend/"]),
    Site(LatepostUrl, LatepostRoot, ["/post/", "/article/", "/case/"]))

  /** Both domains of a plan are absolute `http` URLs. */
  predicate Absolute(plan: Plan) {
    StartsWith(plan.primary.domain, "http") && StartsWith(plan.backup.domain, "http")
  }

  /** The five `crawl_*` functions in the order `build_feishu_content`
      calls them. */
  const Plans: seq<Plan> := [BasicLlmPlan, IndustryDynamicPlan, AiTechPlan, LlmRankingPlan, AiInnovationPlan]

  /** Each plan serves the category of the same position, from absolute
      domains. */
  lemma PlansInOrder()
    ensures |Plans| == |Categories|
    ensures forall k | 0 <= k < |Plans| :: Plans[k].category == Categories[k] && Absolute(Plans[k])
  {
    RootsAbsolute();
    forall k | 0 <= k < |Plans|
      ensures Plans[k].category == Categories[k] && Absolute(Plans[k])
    {
      if k == 0 {
        assert Plans[k] == BasicLlmPlan;
      } else if k == 1 {
        assert Plans[k] == IndustryDynamicPlan;
      } else if k == 2 {
        assert Plans[k] == AiTechPlan;
      } else if k == 3 {
        assert Plans[k] == LlmRankingPlan;
      } else {
        assert Plans[k] == AiInnovationPlan;
      }
    }
  }

  function Visit(site: Site, web: string -> Response): Option<Found> {
    GetValidArticle(web(site.url), site.domain, site.keywords, TitleMinLen)
  }

  /** A `crawl_*` function. `web` gives the response each URL returns during
      the run. The label is the category's whichever site supplied the
      article; a record has a link exactly when it has a summary. */
  function Crawl(plan: Plan, web: string -> Response, today: string): (r: Item)
    ensures r.kind == plan.category.kind
    ensures Absolute(plan) ==> (r.link == "" <==> r.summaryZh == "")
    ensures Absolute(plan) && r.link != "" ==> StartsWith(r.link, "http")
  {
    var primary := Visit(plan.primary, web);
    var backup := Visit(plan.backup, web);
    ChainFoundIff(plan.category, primary, backup, today);
    Chain(plan.category, primary, backup, today)
  }

  /** The five records `build_feishu_content` collects: always five, in the
      fixed category order, whatever the sites returned. */
  function Items(web: string -> Response, today: string): (r: seq<Item>)
    ensures |r| == |Categories|
    ensures forall k | 0 <= k < |r| :: r[k].kind == Categories[k].kind
    ensures forall k | 0 <= k < |r| :: WellLinked(r[k])
  {
    PlansInOrder();
    seq(|Plans|, k requires 0 <= k < |Plans| => Crawl(Plans[k], web, today))
  }

  /** `build_feishu_content`. */
  function BuildContent(web: string -> Response, today: string): (r: string)
    ensures StartsWith(r, Heading(today))
    ensures TrailingTrimmed(Unstripped(today, Items(web, today)), r)
  {
    Render(today, Items(web, today))
  }

  /** The digest names all five categories, each under its fixed number and
      label, whatever the sites returned. */
  lemma BuildContentListsCategories(web: string -> Response, today: string, k: nat)
    requires k < |Categories|
    ensures Contains(BuildContent(web, today), Decimal(k + 1) + ". 【" + Categories[k].kind + "】")
  {
    var items := Items(web, today);
    RenderShowsItem(today, items, k);
    assert HeadLine(k + 1, items[k]) == Decimal(k + 1) + ". 【" + Categories[k].kind + "】";
  }
}

=== FILE: news_english.dfy ===
/** `ai_news_english.py`: five articles a day, three from the arXiv cs.AI
    feed and two AI-related Hacker News stories, each with an English and a
    Chinese rendering of its title and body text, topped up with fixed
    default articles when the sources give fewer than five. */
module NewsEnglish {
  import opened Options
  import opened Lists
  import opened Text
  import opened Provider

  // ---------------------------------------------------------------------
  // clean_text
  // ---------------------------------------------------------------------

  /** Every whitespace character is a plain space and no two whitespace
      characters are adjacent: what `re.sub(r'\s+', ' ', s)` leaves. */
  predicate Collapsed(s: string) {
    && (forall i | 0 <= i < |s| && IsSpace(s[i]) :: s[i] == ' ')
    && (forall i | 0 <= i < |s| - 1 :: !(IsSpace(s[i]) && IsSpace(s[i + 1])))
  }

  /** `re.sub(r'\s+', ' ', s)`: every maximal run of whitespace becomes one
      space. */
  function Collapse(s: string): (r: string)
    ensures |r| <= |s|
    ensures r == [] <==> s == []
    ensures r != [] ==> (IsSpace(r[0]) <==> IsSpace(s[0]))
    ensures Collapsed(r)
    decreases |s|
  {
    if s == [] then []
    else if IsSpace(s[0]) then
      var k := SkipSpace(s, 1);
      [' '] + Collapse(s[k..])
    else
      [s[0]] + Collapse(s[1..])
  }

  /** Collapsing whitespace changes whitespace only: the visible text is
      the same. */
  lemma {:induction false} CollapseKeepsText(s: string)
    ensures Visible(Collapse(s)) == Visible(s)
    decreases |s|
  {
    if s != [] {
      if IsSpace(s[0]) {
        var k := SkipSpace(s, 1);
        assert s == s[..k] + s[k..];
        assert SpaceBetween(s[..k], 0, k) by {
          forall m | 0 <= m < k ensures IsSpace(s[..k][m]) {
            assert s[..k][m] == s[m];
          }
        }
        VisibleOfSpace(s[..k]);
        VisibleAppend(s[..k], s[k..]);
        CollapseKeepsText(s[k..]);
        VisibleAppend([' '], Collapse(s[k..]));
      } else {
        CollapseKeepsText(s[1..]);
        VisibleAppend([s[0]], Collapse(s[1..]));
        assert s == [s[0]] + s[1..];
        VisibleAppend([s[0]], s[1..]);
      }
    }
  }

  /** The strings `re.sub(r'\s+', ' ', s)` leaves alone are exactly the
      collapsed ones. */
  lemma {:induction false} CollapseFixpoint(s: string)
    ensures Collapse(s) == s <==> Collapsed(s)
    decreases |s|
  {
    if s != [] && Collapsed(s) {
      assert Collapsed(s[1..]) by {
        forall i | 0 <= i < |s| - 1 && IsSpace(s[1..][i]) ensures s[1..][i] == ' ' {
          assert s[1..][i] == s[i + 1];
        }
        forall i | 0 <= i < |s| - 2 ensures !(IsSpace(s[1..][i]) && IsSpace(s[1..][i + 1])) {
          assert s[1..][i] == s[i + 1] && s[1..][i + 1] == s[i + 2];
        }
      }
      CollapseFixpoint(s[1..]);
      if IsSpace(s[0]) {
        assert |s| == 1 || !IsSpace(s[1]);
        assert SkipSpace(s, 1) == 1;
      }
      assert s == [s[0]] + s[1..];
    }
  }

  /** The scan for the end of a whitespace run stops at the first
      non-whitespace character: any index with only whitespace before it
      and a visible character (or the end) at it is that stop. */
  lemma {:induction false} SkipSpaceAt(s: string, k: nat, r: nat)
    requires k <= r <= |s|
    requires SpaceBetween(s, k, r) && (r == |s| || !IsSpace(s[r]))
    ensures SkipSpace(s, k) == r
    decreases r - k
  {
    if k < r {
      assert IsSpace(s[k]);
      SkipSpaceAt(s, k + 1, r);
    }
  }

  /** A text ending on a visible character collapses on its own: what
      follows it does not change how it collapses. */
  lemma {:induction false} CollapseAppend(a: string, b: string)
    requires a == [] || !IsSpace(a[|a| - 1])
    ensures Collapse(a + b) == Collapse(a) + Collapse(b)
    decreases |a|
  {
    if a == [] {
      assert a + b == b;
    } else if IsSpace(a[0]) {
      var k := SkipSpace(a, 1);
      assert k < |a|;
      SkipSpaceAt(a + b, 1, k);
      assert (a + b)[k..] == a[k..] + b;
      CollapseAppend(a[k..], b);
      Assoc([' '], Collapse(a[k..]), Collapse(b));
    } else {
      assert (a + b)[1..] == a[1..] + b;
      CollapseAppend(a[1..], b);
      Assoc([a[0]], Collapse(a[1..]), Collapse(b));
    }
  }

  /** A whitespace run at the start, up to a visible character or the end,
      becomes one space. */
  lemma CollapseLeadingRun(w: string, v: string)
    requires w != [] && SpaceBetween(w, 0, |w|)
    requires v == [] || !IsSpace(v[0])
    ensures Collapse(w + v) == [' '] + Collapse(v)
  {
    var x := w + v;
    assert x[0] == w[0] && IsSpace(x[0]);
    assert SpaceBetween(x, 1, |w|) by {
      forall m | 1 <= m < |w| ensures IsSpace(x[m]) {
        assert x[m] == w[m];
      }
    }
    if v != [] {
      assert x[|w|] == v[0];
    }
    SkipSpaceAt(x, 1, |w|);
    assert x[|w|..] == v;
  }

  /** `re.sub(r'\s+', ' ', s)` turns a whole whitespace run between two
      visible stretches into exactly one space. */
  lemma CollapseRun(u: string, w: string, v: string)
    requires u == [] || !IsSpace(u[|u| - 1])
    requires w != [] && SpaceBetween(w, 0, |w|)
    requires v == [] || !IsSpace(v[0])
    ensures Collapse(u + w + v) == Collapse(u) + " " + Collapse(v)
  {
    assert u + w + v == u + (w + v);
    CollapseAppend(u, w + v);
    CollapseLeadingRun(w, v);
    Assoc(Collapse(u), " ", Collapse(v));
  }

  /** Taking a slice keeps a string collapsed. */
  lemma SliceCollapsed(s: string, i: nat, j: nat)
    requires i <= j <= |s| && Collapsed(s)
    ensures Collapsed(s[i..j])
  {
    var t := s[i..j];
    forall m | 0 <= m < |t| - 1 ensures !(IsSpace(t[m]) && IsSpace(t[m + 1])) {
      assert t[m] == s[i + m] && t[m + 1] == s[i + m + 1];
    }
  }

  /** Stripping keeps a string collapsed. */
  lemma StripCollapsed(s: string)
    requires Collapsed(s)
    ensures Collapsed(Strip(s))
  {
    var i := StripIsSlice(s);
    SliceCollapsed(s, i, i + |Strip(s)|);
  }

  const CleanCut := 500

  /** `clean_text`: runs of whitespace become one space, the ends are
      stripped, and the result is cut to 500 characters. */
  function Clean(text: string): (r: string)
    ensures text == [] ==> r == []
    ensures |r| <= CleanCut
    ensures Collapsed(r)
    ensures r == [] || !IsSpace(r[0])
    ensures |Visible(r)| <= |Visible(text)| && Visible(text)[..|Visible(r)|] == Visible(r)
    ensures |r| == CleanCut || Visible(r) == Visible(text)
  {
    if text == [] then []
    else
      var c := Collapse(text);
      var t := Take(Strip(c), CleanCut);
      StripCollapsed(c);
      SliceCollapsed(Strip(c), 0, |t|);
      assert t == Strip(c)[0..|t|];
      VisiblePrefix(Strip(c), |t|);
      StripKeepsText(c);
      CollapseKeepsText(text);
      t
  }

  /** The visible text of a prefix is a prefix of the visible text. */
  lemma VisiblePrefix(s: string, n: nat)
    requires n <= |s|
    ensures |Visible(s[..n])| <= |Visible(s)| && Visible(s)[..|Visible(s[..n])|] == Visible(s[..n])
  {
    assert s == s[..n] + s[n..];
    VisibleAppend(s[..n], s[n..]);
  }

  /** Below the cut, `clean_text` only rewrites whitespace: the visible
      characters are those of the input, all of them, in order. */
  lemma CleanKeepsText(text: string)
    requires |Strip(Collapse(text))| <= CleanCut
    ensures Visible(Clean(text)) == Visible(text)
  {
    if text != [] {
      var c := Collapse(text);
      assert Clean(text) == Take(Strip(c), CleanCut) == Strip(c);
      StripKeepsText(c);
      CollapseKeepsText(text);
    }
  }

  /** On text that is already collapsed and within the cut, `clean_text`
      is `strip()`. */
  lemma CleanOfCollapsed(c: string)
    requires Collapsed(c) && |c| <= CleanCut
    ensures Clean(c) == Strip(c)
  {
    if c != [] {
      CollapseFixpoint(c);
      assert Clean(c) == Take(Strip(c), CleanCut);
    }
  }

  /** `clean_text` depends on its input only through the collapsed text:
      every whitespace run counts as the single space `Collapse` leaves. */
  lemma CleanThroughCollapse(text: string)
    ensures Clean(text) == Clean(Collapse(text))
  {
    if text != [] {
      CollapseFixpoint(Collapse(text));
    }
  }

  /** On collapsed text of any length, `clean_text` is `strip()` followed by
      the 500-character cut. */
  lemma CleanOfCollapsedText(c: string)
    requires Collapsed(c)
    ensures Clean(c) == Take(Strip(c), CleanCut)
  {
    if c != [] {
      CollapseFixpoint(c);
    }
  }

  /** On collapsed text within the cut that does not start with
      whitespace, `clean_text` removes at most one trailing space. */
  lemma CleanOfCut(c: string)
    requires Collapsed(c) && |c| <= CleanCut && (c == [] || !IsSpace(c[0]))
    ensures Clean(c) == if c != [] && c[|c| - 1] == ' ' then c[..|c| - 1] else c
  {
    CleanOfCollapsed(c);
    if c != [] {
      if c[|c| - 1] == ' ' {
        assert |c| >= 2;
        assert !IsSpace(c[|c| - 2]);
        assert NoEdgeSpace(c[0..|c| - 1]);
        StripUnique(c, 0, |c| - 1);
      } else {
        StripFixpoint(c);
      }
    }
  }

  /** `clean_text` is not idempotent: a second pass removes the single space
      the 500-character cut can leave at the end, and changes nothing else. */
  lemma CleanAgain(text: string)
    ensures var c := Clean(text);
      Clean(c) == if c != [] && c[|c| - 1] == ' ' then c[..|c| - 1] else c
  {
    CleanOfCut(Clean(text));
  }

  /** On text already collapsed and stripped, `clean_text` is the cut. */
  lemma CleanOfTidy(text: string)
    requires text != [] && Collapsed(text) && NoEdgeSpace(text)
    ensures Clean(text) == Take(text, CleanCut)
  {
    CollapseFixpoint(text);
    StripFixpoint(text);
  }

  /** `clean_text` is not idempotent: when the 500-character cut falls
      right after a space, as it does for a 499-character word followed by a
      space and more text, the cleaned text ends in that space and a second
      pass removes it. */
  lemma CleanNotIdempotent(word: string, more: string)
    requires |word| == CleanCut - 1 && more != []
    requires forall i | 0 <= i < |word| :: !IsSpace(word[i])
    requires forall i | 0 <= i < |more| :: !IsSpace(more[i])
    ensures Clean(word + " " + more) == word + " "
    ensures Clean(Clean(word + " " + more)) == word
  {
    var text := word + " " + more;
    assert forall i | 0 <= i < |word| :: text[i] == word[i];
    assert forall i | |word| < i < |text| :: text[i] == more[i - |word| - 1];
    assert text[|word|] == ' ';
    assert Collapsed(text);
    CleanOfTidy(text);
    assert Take(text, CleanCut) == word + " ";
    CleanAgain(text);
    assert (word + " ")[..|word|] == word;
  }

  // ---------------------------------------------------------------------
  // baidu_translate
  // ---------------------------------------------------------------------

  /** A `{"en": ..., "zh": ...}` pair. */
  datatype Bilingual = Bilingual(en: string, zh: string)

  const QueryCut := 500
  const FallbackLead := 100
  const ServiceDown := "【翻译服务暂不可用】"

  /** The truncation applied before each request: longer than 500
      characters becomes the first 500 followed by `"..."`. */
  function Shorten(text: string): (r: string)
    ensures |text| <= QueryCut ==> r == text
    ensures |text| > QueryCut ==> |r| == QueryCut + 3 && r[..QueryCut] == text[..QueryCut] && r[QueryCut..] == "..."
  {
    if |text| > QueryCut then text[..QueryCut] + "..." else text
  }

  /** Retrying does not shorten the query again: the truncated text is a
      fixed point of the truncation. */
  lemma ShortenStable(text: string)
    ensures Shorten(Shorten(text)) == Shorten(text)
  {
    if |text| > QueryCut {
      assert Shorten(text)[..QueryCut] == text[..QueryCut];
    }
  }

  /** The first 100 characters survive the truncation. */
  lemma ShortenKeepsLead(text: string)
    ensures Take(Shorten(text), FallbackLead) == Take(text, FallbackLead)
  {
    if |text| > QueryCut {
      assert Shorten(text)[..FallbackLead] == text[..QueryCut][..FallbackLead];
    }
  }

  /** The Chinese half returned when no attempt produced a translation. */
  function Fallback(text: string): (r: string)
    ensures StartsWith(r, ServiceDown)
    ensures |r| == |ServiceDown| + |Take(text, FallbackLead)| + 3
    ensures r[|ServiceDown|..|r| - 3] == Take(text, FallbackLead) && StartsWith(text, Take(text, FallbackLead))
  {
    ServiceDown + Take(text, FallbackLead) + "..."
  }

  /** The translation the `i`-th request receives; a request beyond the
      given replies raised. */
  function Answer(replies: seq<Reply>, i: nat): (r: Option<string>)
    ensures r.Some? ==> i < |replies| && Translation(replies[i]) == r
  {
    if i < |replies| then Translation(replies[i]) else None
  }

  /** What `baidu_translate` returns: inputs shorter than two characters
      unchanged in both halves; otherwise the truncated input as the English
      half, and as the Chinese half the first of at most two attempts that
      yields a translation, or the fallback notice built from the input's
      first 100 characters. */
  function Translate(text: string, replies: seq<Reply>): (r: Bilingual)
    ensures |text| < 2 ==> r == Bilingual(text, text)
    ensures |text| >= 2 ==> r.en == Shorten(text)
    ensures |text| >= 2 ==> (exists i | 0 <= i < 2 :: Answer(replies, i) == Some(r.zh)) || r.zh == Fallback(text)
    ensures |text| >= 2 && Answer(replies, 0).Some? ==> r.zh == Answer(replies, 0).value
    ensures |text| >= 2 && Answer(replies, 0).None? && Answer(replies, 1).Some? ==> r.zh == Answer(replies, 1).value
    ensures |text| >= 2 && Answer(replies, 0).None? && Answer(replies, 1).None? ==> r.zh == Fallback(text)
  {
    if |text| < 2 then Bilingual(text, text)
    else
      var zh := match Answer(replies, 0)
        case Some(t) => t
        case None => Answer(replies, 1).GetOr(Fallback(text));
      Bilingual(Shorten(text), zh)
  }

  /** The retry loop of `baidu_translate`, step by step: the query variable
      is truncated on every attempt, a reply with a translation ends the
      loop, and the notice is built from the query variable. It computes
      `Translate`, and counts the attempts: one for an answer at the first
      attempt and two otherwise. Without credentials an attempt raises
      before its request is sent, and it still counts. */
  method TranslateWithRetries(text: string, replies: seq<Reply>) returns (r: Bilingual, attempts: nat)
    ensures r == Translate(text, replies)
    ensures attempts == if |text| < 2 then 0 else if Answer(replies, 0).Some? then 1 else 2
  {
    if |text| < 2 {
      return Bilingual(text, text), 0;
    }
    var query := text;
    attempts := 0;
    while attempts < 2
      invariant attempts <= 2
      invariant attempts == 0 ==> query == text
      invariant attempts > 0 ==> query == Shorten(text)
      invariant forall i | 0 <= i < attempts :: Answer(replies, i).None?
    {
      ShortenStable(text);
      query := Shorten(query);
      var answer := Answer(replies, attempts);
      attempts := attempts + 1;
      if answer.Some? {
        return Bilingual(query, answer.value), attempts;
      }
    }
    ShortenKeepsLead(text);
    r := Bilingual(query, ServiceDown + Take(query, FallbackLead) + "...");
  }

  /** Every call site passes text that has been through `clean_text`, which
      already cuts at 500 characters, so the English half is always the
      cleaned text itself. */
  lemma TranslateCleanKeepsEnglish(raw: string, replies: seq<Reply>)
    ensures Translate(Clean(raw), replies).en == Clean(raw)
  {
  }

  // ---------------------------------------------------------------------
  // get_article_content
  // ---------------------------------------------------------------------

  /** What a fetched article page offers: the text of its
      `blockquote.abstract.mathjax` element, if it has one, and the texts of
      its `p` elements in document order. */
  datatype Page = Page(abstractText: Option<string>, paragraphs: seq<string>)

  const ParagraphLimit := 10
  const Unavailable := Bilingual("Content unavailable", "正文内容暂无法获取")

  /** The raw body text taken from a page: the abstract for arXiv URLs (empty
      when the page has none), otherwise the first ten paragraphs joined by
      single spaces. */
  function Body(url: string, page: Page): (r: string)
    ensures Contains(url, "arxiv.org") && page.abstractText.Some? ==> r == page.abstractText.value
    ensures Contains(url, "arxiv.org") && page.abstractText.None? ==> r == ""
    ensures !Contains(url, "arxiv.org") ==>
      forall i | 0 <= i < |page.paragraphs| && i < ParagraphLimit :: Contains(r, page.paragraphs[i])
    ensures !Contains(url, "arxiv.org") && page.paragraphs == [] ==> r == ""
  {
    JoinContains(" ", Take(page.paragraphs, ParagraphLimit));
    if Contains(url, "arxiv.org") then page.abstractText.GetOr("")
    else Join(" ", Take(page.paragraphs, ParagraphLimit))
  }

  /** The strategy is chosen by the URL alone: an arXiv page's paragraphs
      are never read, and no other page's abstract is. */
  lemma BodyStrategy(url: string, a1: Option<string>, a2: Option<string>, p1: seq<string>, p2: seq<string>)
    ensures Contains(url, "arxiv.org") ==> Body(url, Page(a1, p1)) == Body(url, Page(a1, p2))
    ensures !Contains(url, "arxiv.org") ==> Body(url, Page(a1, p1)) == Body(url, Page(a2, p1))
  {
  }

  /** Paragraphs after the tenth never reach the body text. */
  lemma BodyIgnoresLaterParagraphs(url: string, abs: Option<string>, ps: seq<string>, more: seq<string>)
    requires |ps| >= ParagraphLimit
    ensures Body(url, Page(abs, ps + more)) == Body(url, Page(abs, ps))
  {
    assert Take(ps + more, ParagraphLimit) == Take(ps, ParagraphLimit);
  }

  /** `get_article_content`. `fetched` is the page, `None` when fetching or
      parsing it raised; `service` gives the replies the requests for each
      query receive. A failed fetch gives the fixed unavailable pair;
      otherwise the English half is the cleaned body text and the Chinese
      half its translation, the text itself when it is shorter than two
      characters, or the fallback notice. */
  function ArticleContent(url: string, fetched: Option<Page>, service: string -> seq<Reply>): (r: Bilingual)
    ensures fetched.None? ==> r == Unavailable
    ensures fetched.Some? ==> r.en == Clean(Body(url, fetched.value)) && |r.en| <= CleanCut
    ensures fetched.Some? && |r.en| < 2 ==> r.zh == r.en
    ensures fetched.Some? && |r.en| >= 2 && Answer(service(r.en), 0).Some? ==> r.zh == Answer(service(r.en), 0).value
    ensures fetched.Some? && |r.en| >= 2 && Answer(service(r.en), 0).None? && Answer(service(r.en), 1).Some? ==>
      r.zh == Answer(service(r.en), 1).value
    ensures fetched.Some? && |r.en| >= 2 && Answer(service(r.en), 0).None? && Answer(service(r.en), 1).None? ==>
      r.zh == Fallback(r.en)
  {
    match fetched
    case None => Unavailable
    case Some(page) =>
      var content := Clean(Body(url, page));
      Translate(content, service(content))
  }

  // ---------------------------------------------------------------------
  // crawl_articles
  // ---------------------------------------------------------------------

  /** One article of the digest; the random `hot_score` is not modelled. */
  datatype Article = Article(title: Bilingual, content: Bilingual, link: string, source: string)

  /** One arXiv feed entry. */
  datatype FeedEntry = FeedEntry(title: string, link: string)

  /** A Hacker News item as JSON: `title` and `url` when present. */
  datatype Story = Story(title: Option<string>, url: Option<string>)

  /** A story the loop accepts, with its id. */
  datatype Pick = Pick(id: nat, story: Story)

  const ArxivLimit := 3
  const HnScanLimit := 10
  const HnPickLimit := 2
  const Target := 5

  /** The environment one run sees: the feed entries (`None` when reading
      the feed raised), the top story ids (`None` when that request raised),
      each item's JSON (`None` when its request raised), each article page,
      and the translation replies each query receives. */
  datatype World = World(
    feed: Option<seq<FeedEntry>>,
    top: Option<seq<nat>>,
    stories: nat -> Option<Story>,
    pages: string -> Option<Page>,
    service: string -> seq<Reply>)

  /** The bilingual title of a raw title. */
  function Title(raw: string, w: World): Bilingual {
    Translate(Clean(raw), w.service(Clean(raw)))
  }

  function ArxivArticle(e: FeedEntry, w: World): Article {
    Article(Title(e.title, w), ArticleContent(e.link, w.pages(e.link), w.service), e.link, "arXiv")
  }

  /** The arXiv part: the first three feed entries, in feed order, each
      keeping its own link, with its title cleaned before translation. */
  function ArxivArticles(w: World): (r: seq<Article>)
    ensures w.feed.None? ==> r == []
    ensures w.feed.Some? ==> |r| == |Take(w.feed.value, ArxivLimit)|
    ensures w.feed.Some? ==> forall i | 0 <= i < |r| ::
      r[i].source == "arXiv" && r[i].link == w.feed.value[i].link && r[i].title.en == Clean(w.feed.value[i].title)
  {
    match w.feed
    case None => []
    case Some(entries) =>
      var firsts := Take(entries, ArxivLimit);
      seq(|firsts|, i requires 0 <= i < |firsts| => ArxivArticle(firsts[i], w))
  }

  /** The condition on a title: it contains `"AI"` or `"LLM"`, case
      sensitively, anywhere. */
  predicate Topical(title: string) {
    Contains(title, "AI") || Contains(title, "LLM")
  }

  /** A fetched item the loop accepts: it has a title and the title is
      topical. */
  predicate Wanted(story: Option<Story>) {
    story.Some? && story.value.title.Some? && Topical(story.value.title.value)
  }

  /** Every acceptable story among `ids`, in order: the reference the
      scanning loop is measured against. */
  function Picks(ids: seq<nat>, stories: nat -> Option<Story>): (r: seq<Pick>)
    ensures |r| <= |ids|
    ensures forall k | 0 <= k < |r| :: r[k].id in ids && Wanted(stories(r[k].id)) && stories(r[k].id) == Some(r[k].story)
  {
    if ids == [] then []
    else
      var last := ids[|ids| - 1];
      Picks(ids[..|ids| - 1], stories) + (if Wanted(stories(last)) then [Pick(last, stories(last).value)] else [])
  }

  /** Picking is done id by id: the picks of `a + b` are those of `a`
      followed by those of `b`. */
  lemma {:induction false} PicksAppend(a: seq<nat>, b: seq<nat>, stories: nat -> Option<Story>)
    ensures Picks(a + b, stories) == Picks(a, stories) + Picks(b, stories)
    decreases |b|
  {
    if b == [] {
      assert a + b == a;
    } else {
      var ab := a + b;
      var init := b[..|b| - 1];
      var last := b[|b| - 1];
      assert ab[..|ab| - 1] == a + init;
      assert ab[|ab| - 1] == last;
      PicksAppend(a, init, stories);
      var tail := if Wanted(stories(last)) then [Pick(last, stories(last).value)] else [];
      assert Picks(b, stories) == Picks(init, stories) + tail;
      assert Picks(ab, stories) == Picks(a, stories) + Picks(init, stories) + tail;
    }
  }

  /** No acceptable story is missed: the pick of the id at position `i`
      comes right after the picks of the ids before it. */
  lemma PicksComplete(ids: seq<nat>, i: nat, stories: nat -> Option<Story>)
    requires i < |ids| && Wanted(stories(ids[i]))
    ensures |Picks(ids[..i], stories)| < |Picks(ids, stories)|
    ensures Picks(ids, stories)[|Picks(ids[..i], stories)|] == Pick(ids[i], stories(ids[i]).value)
  {
    var x := ids[i];
    assert ids == ids[..i] + [x] + ids[i + 1..];
    PicksAppend(ids[..i] + [x], ids[i + 1..], stories);
    PicksAppend(ids[..i], [x], stories);
    assert [x][..0] == [];
    assert Picks([x], stories) == [Pick(x, stories(x).value)];
  }

  /** Looking at more ids only adds picks at the end. */
  lemma {:induction false} PicksPrefix(ids: seq<nat>, i: nat, stories: nat -> Option<Story>)
    requires i <= |ids|
    ensures |Picks(ids[..i], stories)| <= |Picks(ids, stories)|
    ensures Picks(ids, stories)[..|Picks(ids[..i], stories)|] == Picks(ids[..i], stories)
    decreases |ids| - i
  {
    if i < |ids| {
      PicksPrefix(ids, i + 1, stories);
      assert ids[..i + 1][..i] == ids[..i];
    } else {
      assert ids[..i] == ids;
    }
  }

  /** The Hacker News loop: it walks the first ten top ids, fetching each
      item until two stories have been accepted. It returns exactly the
      first two acceptable stories among those ten, and fetches every one
      of the ten unless it found two. */
  method PickStories(ids: seq<nat>, stories: nat -> Option<Story>) returns (picks: seq<Pick>, fetched: nat)
    ensures picks == Take(Picks(Take(ids, HnScanLimit), stories), HnPickLimit)
    ensures |picks| <= HnPickLimit
    ensures fetched <= HnScanLimit && fetched <= |ids|
    ensures |picks| < HnPickLimit ==> fetched == |Take(ids, HnScanLimit)|
  {
    var top := Take(ids, HnScanLimit);
    picks := [];
    fetched := 0;
    while fetched < |top|
      invariant fetched <= |top|
      invariant picks == Take(Picks(top[..fetched], stories), HnPickLimit)
    {
      if |picks| >= HnPickLimit {
        PicksPrefix(top, fetched, stories);
        assert top[..|top|] == top;
        return;
      }
      var id := top[fetched];
      var story := stories(id);
      assert top[..fetched + 1] == top[..fetched] + [id];
      assert top[..fetched + 1][..fetched] == top[..fetched];
      if Wanted(story) {
        picks := picks + [Pick(id, story.value)];
      }
      fetched := fetched + 1;
    }
    assert top[..fetched] == top;
  }

  const ItemPagePrefix := "https://news.ycombinator.com/item?id="

  /** The link used for a story without a `url`: its Hacker News page. */
  function ItemPage(id: nat): string {
    ItemPagePrefix + Decimal(id)
  }

  /** Different stories get different item pages: the id can be read back
      from the link. */
  lemma ItemPageInjective(a: nat, b: nat)
    ensures ItemPage(a) == ItemPage(b) <==> a == b
  {
    if ItemPage(a) == ItemPage(b) {
      assert Decimal(a) == ItemPage(a)[|ItemPagePrefix|..];
      assert Decimal(b) == ItemPage(b)[|ItemPagePrefix|..];
      DecimalRoundTrip(a);
      DecimalRoundTrip(b);
    }
  }

  /** The link of a picked story: its `url`, or its item page without one. */
  function StoryLink(p: Pick): string {
    p.story.url.GetOr(ItemPage(p.id))
  }

  function HnArticle(p: Pick, w: World): Article {
    var link := StoryLink(p);
    Article(Title(p.story.title.GetOr(""), w), ArticleContent(link, w.pages(link), w.service), link, "HackerNews")
  }

  function HnArticlesOf(picks: seq<Pick>, w: World): (r: seq<Article>)
    ensures |r| == |picks|
    ensures forall i | 0 <= i < |r| :: r[i].source == "HackerNews" && r[i].link == StoryLink(picks[i])
  {
    seq(|picks|, i requires 0 <= i < |picks| => HnArticle(picks[i], w))
  }

  /** The Hacker News part: at most two articles, each from a topical story
      among the first ten top ids, linked to its `url` or item page. */
  function HnArticles(w: World): (r: seq<Article>)
    ensures w.top.None? ==> r == []
    ensures |r| <= HnPickLimit
    ensures forall i | 0 <= i < |r| :: r[i].source == "HackerNews"
  {
    match w.top
    case None => []
    case Some(ids) => HnArticlesOf(Take(Picks(Take(ids, HnScanLimit), w.stories), HnPickLimit), w)
  }

  /** The articles the two sources contribute, at most five. */
  function Collected(w: World): (r: seq<Article>)
    ensures |r| <= Target && |ArxivArticles(w)| <= |r|
    ensures r[..|ArxivArticles(w)|] == ArxivArticles(w)
  {
    ArxivArticles(w) + HnArticles(w)
  }

  /** Every collected article comes from arXiv or Hacker News. */
  lemma CollectedSources(w: World)
    ensures forall k | 0 <= k < |Collected(w)| :: Collected(w)[k].source in {"arXiv", "HackerNews"}
  {
    var a, h := ArxivArticles(w), HnArticles(w);
    forall k | 0 <= k < |Collected(w)|
      ensures Collected(w)[k].source in {"arXiv", "HackerNews"}
    {
      if k < |a| {
        assert Collected(w)[k] == a[k];
      } else {
        assert Collected(w)[k] == h[k - |a|];
      }
    }
  }

  // ---------------------------------------------------------------------
  // The top-up loop
  // ---------------------------------------------------------------------

  const DefaultTitles: seq<Bilingual> := [
    Bilingual("AI Model Efficiency Optimization", "AI模型效率优化"),
    Bilingual("Multimodal AI Applications", "多模态AI应用"),
    Bilingual("AI Ethics and Regulation", "AI伦理与监管")
  ]
  const DefaultContent := Bilingual("Latest developments in AI technology and applications.", "人工智能技术与应用的最新发展。")
  const DefaultLink := "https://www.ai.gov/"

  function DefaultArticle(i: nat): Article
    requires i < |DefaultTitles|
  {
    Article(DefaultTitles[i], DefaultContent, DefaultLink, "AI Industry")
  }

  /** One pass of the top-up loop as written: the default at index
      `len(articles) - 3` is appended when that index is in range, and
      nothing happens otherwise. */
  function BackfillStep(a: seq<Article>): (r: seq<Article>)
    ensures |a| <= |r| <= |a| + 1 && r[..|a|] == a
    ensures |r| == |a| + 1 <==> 3 <= |a| < 3 + |DefaultTitles|
    ensures |r| == |a| + 1 ==> r[|a|] == DefaultArticle(|a| - 3)
  {
    var idx := |a| - 3;
    if 0 <= idx < |DefaultTitles| then a + [DefaultArticle(idx)] else a
  }

  function Iterate(a: seq<Article>, n: nat): seq<Article>
    decreases n
  {
    if n == 0 then a else Iterate(BackfillStep(a), n - 1)
  }

  /** With fewer than three collected articles the loop as written makes no
      progress however many passes it makes: `len(articles) < 5` stays true
      and the run never ends. */
  lemma {:induction false} BackfillStalls(a: seq<Article>, n: nat)
    requires |a| < 3
    ensures Iterate(a, n) == a && |Iterate(a, n)| < Target
  {
    if n > 0 {
      assert BackfillStep(a) == a;
      BackfillStalls(a, n - 1);
    }
  }

  /** From three or four collected articles the loop as written does finish,
      appending the defaults from index `len - 3` onwards. */
  lemma BackfillFinishesFromThree(a: seq<Article>)
    requires 3 <= |a| < Target
    ensures var r := Iterate(a, Target - |a|);
      && |r| == Target
      && r[..|a|] == a
      && forall k | |a| <= k < Target :: r[k] == DefaultArticle(k - 3)
  {
    var a4 := a + [DefaultArticle(|a| - 3)];
    assert BackfillStep(a) == a4;
    if |a| == 3 {
      var a5 := a4 + [DefaultArticle(1)];
      assert BackfillStep(a4) == a5;
      assert Iterate(a, 2) == Iterate(a4, 1) == Iterate(a5, 0) == a5;
      assert a5[..3] == a;
    } else {
      assert Iterate(a, 1) == Iterate(a4, 0) == a4;
      assert a4[..4] == a;
    }
  }

  /** The top-up loop as intended: while fewer than five articles are held,
      append the default at index `len(articles) % 3`. This agrees with the
      loop as written whenever that one makes progress, and it ends from any
      number of collected articles. */
  method Backfill(a: seq<Article>) returns (r: seq<Article>)
    ensures |r| == if |a| < Target then Target else |a|
    ensures r[..|a|] == a
    ensures forall k | |a| <= k < |r| :: r[k] == DefaultArticle(k % 3)
  {
    r := a;
    while |r| < Target
      invariant |a| <= |r| && (|a| < Target ==> |r| <= Target) && (|a| >= Target ==> r == a)
      invariant r[..|a|] == a
      invariant forall k | |a| <= k < |r| :: r[k] == DefaultArticle(k % 3)
      decreases Target - |r|
    {
      r := r + [DefaultArticle(|r| % 3)];
    }
  }

  /** Where the loop as written makes progress, the intended step is the
      same step. */
  lemma BackfillAgrees(a: seq<Article>)
    requires 3 <= |a| < Target
    ensures BackfillStep(a) == a + [DefaultArticle(|a| % 3)]
  {
  }

  /** `crawl_articles` with the intended top-up loop: exactly five articles,
      the collected ones first in the order they were found, then defaults
      cycling through the three fixed titles. */
  method CrawlArticles(w: World) returns (r: seq<Article>)
    ensures |r| == Target
    ensures r[..|Collected(w)|] == Collected(w)
    ensures forall k | |Collected(w)| <= k < Target :: r[k] == DefaultArticle(k % 3)
    ensures forall k | 0 <= k < Target :: r[k].source in {"arXiv", "HackerNews", "AI Industry"}
  {
    var articles := ArxivArticles(w);
    if w.top.Some? {
      var picks, _ := PickStories(w.top.value, w.stories);
      articles := articles + HnArticlesOf(picks, w);
    }
    assert articles == Collected(w);
    var all := Backfill(articles);
    r := Take(all, Target);
    CollectedSources(w);
    forall k | 0 <= k < Target ensures r[k].source in {"arXiv", "HackerNews", "AI Industry"} {
      if k < |articles| {
        assert r[k] == articles[k];
      }
    }
  }
}

=== FILE: news_final.dfy ===
/** `ai_news_final.py`: five categories, each scraped from a primary site
    with a backup site, the first matching element of a page taken as the
    category's article. The script also defines `baidu_translate`, which
    degrades to the input text; no crawler calls it, and it is modelled on
    its own. */
module NewsFinal {
  import opened Options
  import opened Lists
  import opened Text
  import opened Provider
  import opened Digest

  // ---------------------------------------------------------------------
  // clean_text
  // ---------------------------------------------------------------------

  /** `clean_text`: delete every `\n`, then every `\r`, then strip. Only
      whitespace goes: the visible characters all stay, in order. */
  function Clean(text: string): (r: string)
    ensures '\n' !in r && '\r' !in r
    ensures NoEdgeSpace(r)
    ensures |r| <= |text|
    ensures forall c | c in r :: c in text
    ensures Visible(r) == Visible(text)
  {
    var s := Remove(Remove(text, '\n'), '\r');
    RemoveContents(text, '\n');
    RemoveContents(Remove(text, '\n'), '\r');
    RemoveKeepsText(text, '\n');
    RemoveKeepsText(Remove(text, '\n'), '\r');
    StripKeepsText(s);
    Strip(s)
  }

  /** The texts `clean_text` leaves alone are exactly those with no line
      break characters and no whitespace at either end. */
  lemma CleanFixpoint(text: string)
    ensures Clean(text) == text <==> ('\n' !in text && '\r' !in text && NoEdgeSpace(text))
  {
    if '\n' !in text && '\r' !in text && NoEdgeSpace(text) {
      StripFixpoint(text);
    }
  }

  /** Cleaning twice is cleaning once. */
  lemma CleanIdempotent(text: string)
    ensures Clean(Clean(text)) == Clean(text)
  {
    CleanFixpoint(Clean(text));
  }

  /** Without line breaks, `clean_text` is `strip()`: no interior character
      is touched. */
  lemma CleanOfUnbroken(t: string)
    requires '\n' !in t && '\r' !in t
    ensures Clean(t) == Strip(t)
  {
  }

  /** A line break anywhere is simply dropped: cleaning the text with it is
      cleaning the text without it. With `CleanOfUnbroken` this fixes the
      result of `clean_text` on every input. */
  lemma CleanDropsBreak(a: string, c: char, b: string)
    requires c == '\n' || c == '\r'
    ensures Clean(a + [c] + b) == Clean(a + b)
  {
    RemoveBreaksDrop(a, c, b);
  }

  // ---------------------------------------------------------------------
  // baidu_translate
  // ---------------------------------------------------------------------

  /** The two environment variables; `None` when unset. */
  datatype Credentials = Credentials(appId: Option<string>, key: Option<string>)

  /** Python truthiness of an optional string: set and non-empty. */
  predicate Truthy(v: Option<string>) {
    v.Some? && v.value != ""
  }

  predicate Configured(creds: Credentials) {
    Truthy(creds.appId) && Truthy(creds.key)
  }

  /** The text `baidu_translate` returns and how many requests it made. */
  datatype Translated = Translated(text: string, requests: nat)

  /** `baidu_translate`: without both credentials the input comes back and
      no request is made; otherwise exactly one request is made and the input
      comes back unless the reply carries a translation. */
  function Translate(text: string, creds: Credentials, reply: Reply): (r: Translated)
    ensures !Configured(creds) ==> r == Translated(text, 0)
    ensures Configured(creds) ==> r.requests == 1
    ensures r.text == text || (Configured(creds) && Translation(reply) == Some(r.text))
    ensures Configured(creds) && Translation(reply).Some? ==> r.text == Translation(reply).value
  {
    if !Configured(creds) then Translated(text, 0)
    else
      match Translation(reply)
      case Some(dst) => Translated(dst, 1)
      case None => Translated(text, 1)
  }

  // ---------------------------------------------------------------------
  // Link absolutisation
  // ---------------------------------------------------------------------

  /** The inline link rule of every `crawl_*` function: the element's `href`
      (the page URL when it has none), prefixed with the site root unless it
      already starts with `"http"`. */
  function ResolveLink(href: Option<string>, pageUrl: string, root: string): (r: string)
    ensures StartsWith(href.GetOr(pageUrl), "http") ==> r == href.GetOr(pageUrl)
    ensures !StartsWith(href.GetOr(pageUrl), "http") ==> r == root + href.GetOr(pageUrl)
    ensures StartsWith(root, "http") ==> StartsWith(r, "http")
    ensures root != "" ==> r != ""
  {
    var link := href.GetOr(pageUrl);
    if StartsWith(link, "http") then link else root + link
  }

  /** A resolved link is already absolute: resolving it again changes nothing. */
  lemma ResolveLinkIdempotent(href: Option<string>, pageUrl: string, root: string)
    requires StartsWith(root, "http")
    ensures ResolveLink(Some(ResolveLink(href, pageUrl, root)), pageUrl, root) == ResolveLink(href, pageUrl, root)
  {
    var l := href.GetOr(pageUrl);
    if !StartsWith(l, "http") {
      assert (root + l)[..4] == root[..4];
    }
  }

  // ---------------------------------------------------------------------
  // Scanning one source page
  // ---------------------------------------------------------------------

  /** A parsed page element: tag name, classes, visible text, `href`. */
  datatype Element = Element(tag: string, classes: seq<string>, text: string, href: Option<string>)

  /** `soup.find_all(tag, class_=cls, limit=1)` looks for this. */
  datatype Locator = Locator(tag: string, cls: string)

  predicate Matches(e: Element, loc: Locator) {
    e.tag == loc.tag && loc.cls in e.classes
  }

  /** `find_all(tag, class_=cls, limit=1)`: the first matching element. */
  function FindFirst(page: seq<Element>, loc: Locator): (r: Option<Element>)
    ensures r.None? <==> forall i | 0 <= i < |page| :: !Matches(page[i], loc)
    ensures r.Some? ==> r.value in page && Matches(r.value, loc)
    ensures r.Some? ==> exists i | 0 <= i < |page| ::
      && r.value == page[i]
      && Matches(page[i], loc)
      && (forall j | 0 <= j < i :: !Matches(page[j], loc))
  {
    match FirstWhere(page, e => Matches(e, loc))
    case None => None
    case Some(i) => Some(page[i])
  }

  /** The `if not articles:` cascade: the first element found by the first
      locator that finds anything. */
  function Locate(page: seq<Element>, locators: seq<Locator>): (r: Option<Element>)
    ensures r.None? <==> forall k, i | 0 <= k < |locators| && 0 <= i < |page| :: !Matches(page[i], locators[k])
    ensures r.Some? ==> r.value in page
    ensures r.Some? && locators != [] && FindFirst(page, locators[0]).Some? ==> r == FindFirst(page, locators[0])
  {
    if locators == [] then None
    else
      match FindFirst(page, locators[0])
      case Some(e) => Some(e)
      case None => Locate(page, locators[1..])
  }

  /** The cascade stops at the first locator that finds anything, and the
      element is what that locator finds. */
  lemma {:induction false} LocateFirstHit(page: seq<Element>, locators: seq<Locator>) returns (k: nat)
    requires Locate(page, locators).Some?
    ensures k < |locators|
    ensures forall j | 0 <= j < k :: FindFirst(page, locators[j]).None?
    ensures Locate(page, locators) == FindFirst(page, locators[k])
  {
    if FindFirst(page, locators[0]).Some? {
      k := 0;
    } else {
      var rest := locators[1..];
      var k' := LocateFirstHit(page, rest);
      k := k' + 1;
      assert rest[k'] == locators[k];
      forall j | 0 <= j < k ensures FindFirst(page, locators[j]).None? {
        if j > 0 {
          assert locators[j] == rest[j - 1];
        }
      }
    }
  }

  /** One site: the URL fetched, the root relative links are joined to, and
      the locators tried in order. */
  datatype Source = Source(url: string, root: string, locators: seq<Locator>)

  /** The body of one `try` block of a `crawl_*` function. `fetched` is the
      parsed page, `None` when the request raised. */
  function Scan(src: Source, fetched: Option<seq<Element>>): (r: Option<Found>)
    ensures fetched.None? ==> r.None?
    ensures fetched.Some? ==> (r.Some? <==> Locate(fetched.value, src.locators).Some?)
    ensures r.Some? ==> '\n' !in r.value.title && '\r' !in r.value.title && NoEdgeSpace(r.value.title)
    ensures r.Some? && StartsWith(src.root, "http") ==> StartsWith(r.value.link, "http")
    ensures r.Some? && src.root != "" ==> r.value.link != ""
    ensures r.Some? ==> fetched.Some? && Locate(fetched.value, src.locators).Some?
    ensures r.Some? ==>
      (var e := Locate(fetched.value, src.locators).value;
       r.value == Found(Clean(e.text), ResolveLink(e.href, src.url, src.root)))
  {
    match fetched
    case None => None
    case Some(page) =>
      match Locate(page, src.locators)
      case None => None
      case Some(e) => Some(Found(Clean(e.text), ResolveLink(e.href, src.url, src.root)))
  }

  // ---------------------------------------------------------------------
  // The five categories
  // ---------------------------------------------------------------------

  const ArticleItem := Locator("div", "article-item")

  const Xinzhiyuan := Source(XinzhiyuanRoot + "/", XinzhiyuanRoot, [ArticleItem, Locator("a", "title")])
  const XinzhiyuanBackup := Source(XinzhiyuanRoot + "/", XinzhiyuanRoot, [ArticleItem])
  const Jiqizhixin := Source(JiqizhixinRoot + "/", JiqizhixinRoot, [ArticleItem, Locator("a", "article-title")])
  const JiqizhixinBackup := Source(JiqizhixinRoot + "/", JiqizhixinRoot, [Locator("a", "article-title")])
  const Latepost := Source(LatepostRoot + "/", LatepostRoot, [Locator("article", "post-item"), Locator("a", "post-title")])
  const LatepostBackup := Source(LatepostRoot + "/", LatepostRoot, [Locator("a", "post-title")])
  const Infoq := Source(InfoqRoot + "/topic/ai", InfoqRoot, [ArticleItem, Locator("a", "article-title")])
  const InfoqBackup := Source(InfoqRoot + "/topic/ai", InfoqRoot, [Locator("a", "article-title")])
  const Knowfuture := Source(KnowfutureRoot + "/", KnowfutureRoot, [ArticleItem, Locator("a", "title")])

  /** One `crawl_*` function: its category and its two sources. */
  datatype Plan = Plan(category: Category, primary: Source, backup: Source)

  /** Both roots of a plan are absolute `http` URLs. */
  predicate Absolute(plan: Plan) {
    StartsWith(plan.primary.root, "http") && StartsWith(plan.backup.root, "http")
  }

  const BasicLlmPlan := Plan(BasicLlm, Xinzhiyuan, Jiqizhixin)
  const IndustryDynamicPlan := Plan(IndustryDynamic, Latepost, XinzhiyuanBackup)
  const AiTechPlan := Plan(AiTech, Infoq, JiqizhixinBackup)
  const LlmRankingPlan := Plan(LlmRanking, Jiqizhixin, InfoqBackup)
  const AiInnovationPlan := Plan(AiInnovation, Knowfuture, LatepostBackup)

  /** The five `crawl_*` functions in the order `build_feishu_content`
      calls them. */
  const Plans: seq<Plan> := [BasicLlmPlan, IndustryDynamicPlan, AiTechPlan, LlmRankingPlan, AiInnovationPlan]

  /** Each plan serves the category of the same position, from absolute
      site roots. */
  lemma PlansInOrder()
    ensures |Plans| == |Categories|
    ensures forall k | 0 <= k < |Plans| :: Plans[k].category == Categories[k] && Absolute(Plans[k])
  {
    RootsAbsolute();
    forall k | 0 <= k < |Plans|
      ensures Plans[k].category == Categories[k] && Absolute(Plans[k])
    {
      if k == 0 {
        assert Plans[k] == BasicLlmPlan;
      } else if k == 1 {
        assert Plans[k] == IndustryDynamicPlan;
      } else if k == 2 {
        assert Plans[k] == AiTechPlan;
      } else if k == 3 {
        assert Plans[k] == LlmRankingPlan;
      } else {
        assert Plans[k] == AiInnovationPlan;
      }
    }
  }

  /** A `crawl_*` function. `web` gives the parsed page each URL returns
      during the run, `None` when fetching it raised. */
  function Crawl(plan: Plan, web: string -> Option<seq<Element>>, today: string): (r: Item)
    ensures r.kind == plan.category.kind
    ensures Absolute(plan) ==> (r.link == "" <==> r.summaryZh == "")
    ensures Absolute(plan) && r.link != "" ==> StartsWith(r.link, "http")
  {
    var primary := Scan(plan.primary, web(plan.primary.url));
    var backup := Scan(plan.backup, web(plan.backup.url));
    ChainFoundIff(plan.category, primary, backup, today);
    Chain(plan.category, primary, backup, today)
  }

  /** The five records `build_feishu_content` collects: always five, always
      in the fixed category order, whatever the sites returned. */
  function Items(web: string -> Option<seq<Element>>, today: string): (r: seq<Item>)
    ensures |r| == |Categories|
    ensures forall k | 0 <= k < |r| :: r[k].kind == Categories[k].kind
    ensures forall k | 0 <= k < |r| :: WellLinked(r[k])
  {
    PlansInOrder();
    seq(|Plans|, k requires 0 <= k < |Plans| => Crawl(Plans[k], web, today))
  }

  /** `build_feishu_content`. */
  function BuildContent(web: string -> Option<seq<Element>>, today: string): (r: string)
    ensures StartsWith(r, Heading(today))
    ensures TrailingTrimmed(Unstripped(today, Items(web, today)), r)
  {
    Render(today, Items(web, today))
  }

  /** The digest names all five categories, each under its fixed number and
      label, whatever the sites returned. */
  lemma BuildContentListsCategories(web: string -> Option<seq<Element>>, today: string, k: nat)
    requires k < |Categories|
    ensures Contains(BuildContent(web, today), Decimal(k + 1) + ". 【" + Categories[k].kind + "】")
  {
    var items := Items(web, today);
    RenderShowsItem(today, items, k);
    assert HeadLine(k + 1, items[k]) == Decimal(k + 1) + ". 【" + Categories[k].kind + "】";
  }
}

=== FILE: options.dfy ===
/** Optional values: the model's stand-in for Python's `None` and for a
    request or parse step that raised and was caught. */
module Options {

  datatype Option<+T> = None | Some(value: T) {

    /** The carried value, or `default` when there is none (Python's `x or default`
        / `dict.get(key, default)`). */
    function GetOr(default: T): T {
      match this
      case Some(v) => v
      case None => default
    }
  }
}

=== FILE: provider.dfy ===
/** The translation provider as both translating versions see one request:
    either the request (or the JSON decoding of its answer) raised, or a JSON
    object came back, which may or may not carry a `trans_result` list. Each
    entry of that list is represented by its `dst` string. */
module Provider {
  import opened Options

  datatype Reply =
    | Raised
    | Answered(transResult: Option<seq<string>>)

  /** The translated text a reply carries: the `dst` of the first
      `trans_result` entry, when the key is present and the list non-empty. */
  function Translation(reply: Reply): (r: Option<string>)
    ensures r.Some? <==> reply.Answered? && reply.transResult.Some? && reply.transResult.value != []
    ensures r.Some? ==> r.value == reply.transResult.value[0]
  {
    match reply
    case Raised => None
    case Answered(None) => None
    case Answered(Some(dsts)) => if dsts == [] then None else Some(dsts[0])
  }
}

=== FILE: text.dfy ===
/** The Python `str` operations the scripts rely on, over `string` (a sequence
    of Unicode scalar values, which is what a Python 3 `str` indexes). */
module Text {

  /** Python's `str.isspace` on one character, which is also the class that
      `\s` matches in a `re` pattern over `str`: the ASCII controls 0x09-0x0D
      and 0x1C-0x1F, the space, NEL, NO-BREAK SPACE and the Unicode space
      separators and line/paragraph separators. */
  predicate IsSpace(c: char) {
    || ('\t' <= c <= '\r')
    || ('\U{1C}' <= c <= ' ')
    || c == '\U{85}' || c == '\U{A0}' || c == '\U{1680}'
    || ('\U{2000}' <= c <= '\U{200A}')
    || c == '\U{2028}' || c == '\U{2029}' || c == '\U{202F}' || c == '\U{205F}'
    || c == '\U{3000}'
  }

  /** Every character of `s` in the index range `[lo, hi)` is whitespace. */
  predicate SpaceBetween(s: string, lo: int, hi: int) {
    forall m | lo <= m < hi && 0 <= m < |s| :: IsSpace(s[m])
  }

  /** Neither end of `s` is whitespace: what `strip()` guarantees. */
  predicate NoEdgeSpace(s: string) {
    s == [] || (!IsSpace(s[0]) && !IsSpace(s[|s| - 1]))
  }

  /** The first index at or after `k` that holds a non-whitespace character,
      or `|s|` when there is none. */
  function SkipSpace(s: string, k: nat): (r: nat)
    requires k <= |s|
    ensures k <= r <= |s|
    ensures SpaceBetween(s, k, r)
    ensures r == |s| || !IsSpace(s[r])
    decreases |s| - k
  {
    if k == |s| || !IsSpace(s[k]) then k else SkipSpace(s, k + 1)
  }

  /** The smallest `r` in `[lo, k]` such that `s[r..k]` is all whitespace. */
  function SkipSpaceBack(s: string, lo: nat, k: nat): (r: nat)
    requires lo <= k <= |s|
    ensures lo <= r <= k
    ensures SpaceBetween(s, r, k)
    ensures r == lo || !IsSpace(s[r - 1])
  {
    if k == lo || !IsSpace(s[k - 1]) then k else SkipSpaceBack(s, lo, k - 1)
  }

  /** Python's `s.strip()`: the slice left after dropping leading and
      trailing whitespace. */
  function Strip(s: string): (r: string)
    ensures |r| <= |s|
    ensures NoEdgeSpace(r)
    ensures forall c | c in r :: c in s
  {
    var a := SkipSpace(s, 0);
    s[a..SkipSpaceBack(s, a, |s|)]
  }

  /** `strip()` cuts only whitespace, and only at the two ends: its result is
      the slice `s[i..i + |Strip(s)|]` with whitespace on either side. */
  lemma StripIsSlice(s: string) returns (i: nat)
    ensures i + |Strip(s)| <= |s|
    ensures Strip(s) == s[i..i + |Strip(s)|]
    ensures SpaceBetween(s, 0, i) && SpaceBetween(s, i + |Strip(s)|, |s|)
  {
    i := SkipSpace(s, 0);
  }

  /** `strip()` is characterised by its two guarantees: any slice of `s` with
      only whitespace around it and none at its own ends is `Strip(s)`. */
  lemma StripUnique(s: string, i: nat, j: nat)
    requires i <= j <= |s|
    requires SpaceBetween(s, 0, i) && SpaceBetween(s, j, |s|)
    requires NoEdgeSpace(s[i..j])
    ensures Strip(s) == s[i..j]
  {
    var a := SkipSpace(s, 0);
    if i < j {
      assert !IsSpace(s[i]) && !IsSpace(s[j - 1]);
      assert a == i;
      assert SkipSpaceBack(s, a, |s|) == j;
    }
  }

  /** On a string that opens with a visible character, `strip()` only cuts
      whitespace at the end. */
  lemma StripTrailing(s: string)
    requires s != [] && !IsSpace(s[0])
    ensures Strip(s) == s[..|Strip(s)|] && SpaceBetween(s, |Strip(s)|, |s|)
  {
    var i := StripIsSlice(s);
    assert i == 0;
  }

  /** A string already free of edge whitespace is a fixed point of `strip()`. */
  lemma StripFixpoint(s: string)
    ensures Strip(s) == s <==> NoEdgeSpace(s)
  {
    if NoEdgeSpace(s) {
      StripUnique(s, 0, |s|);
      assert s[0..|s|] == s;
    }
  }

  lemma StripIdempotent(s: string)
    ensures Strip(Strip(s)) == Strip(s)
  {
    StripFixpoint(Strip(s));
  }

  /** A leading piece `p` that has no whitespace at its ends survives `strip()`:
      the left trim stops at its first character and the right trim at its
      last one. */
  lemma StripKeepsPrefix(s: string, p: string)
    requires p != [] && NoEdgeSpace(p)
    requires |p| <= |s| && s[..|p|] == p
    ensures |p| <= |Strip(s)| && Strip(s)[..|p|] == p
  {
    assert s[0] == p[0] && s[|p| - 1] == p[|p| - 1];
  }

  /** Cutting a string at `i` and `j` and putting the pieces back together
      gives the string. */
  lemma Split3(s: string, i: nat, j: nat)
    requires i <= j <= |s|
    ensures s[..i] + s[i..j] + s[j..] == s
  {
  }

  lemma Assoc(a: string, b: string, c: string)
    ensures a + (b + c) == a + b + c
  {
  }

  /** The forward scan stops at the latest at a visible character. */
  lemma {:induction false} SkipSpaceStops(s: string, k: nat, a: nat)
    requires k <= a < |s| && !IsSpace(s[a])
    ensures SkipSpace(s, k) <= a
    decreases a - k
  {
    if k < a && IsSpace(s[k]) {
      SkipSpaceStops(s, k + 1, a);
    }
  }

  /** The backward scan stops at the latest just after a visible
      character. */
  lemma {:induction false} SkipSpaceBackStops(s: string, lo: nat, k: nat, b: nat)
    requires lo <= b < k <= |s| && !IsSpace(s[b])
    ensures b < SkipSpaceBack(s, lo, k)
    decreases k
  {
    if b < k - 1 && IsSpace(s[k - 1]) {
      SkipSpaceBackStops(s, lo, k - 1, b);
    }
  }

  /** Whatever lies between two non-whitespace characters survives
      `strip()`. */
  lemma StripKeepsMiddle(s: string, a: nat, i: nat, j: nat, b: nat)
    requires a <= i <= j <= b + 1 && a <= b < |s|
    requires !IsSpace(s[a]) && !IsSpace(s[b])
    ensures Contains(Strip(s), s[i..j])
  {
    var st := SkipSpace(s, 0);
    SkipSpaceStops(s, 0, a);
    var en := SkipSpaceBack(s, st, |s|);
    SkipSpaceBackStops(s, st, |s|, b);
    var t := Strip(s);
    assert t == s[st..en];
    var p := s[i..j];
    var u := t[i - st..];
    assert u == s[i..en];
    assert u[..j - i] == p;
    assert StartsWith(u, p);
    assert 0 <= i - st <= |t|;
  }

  /** Python's `s.replace(c, "")` for a one-character `c`: every occurrence
      of `c` goes, every other character stays, in order. */
  function Remove(s: string, c: char): (r: string)
    ensures multiset(r) == multiset(s)[c := 0]
    ensures c !in s ==> r == s
  {
    if s == [] then []
    else
      assert s == [s[0]] + s[1..];
      (if s[0] == c then [] else [s[0]]) + Remove(s[1..], c)
  }

  /** `replace` works character by character: removing from `a + b` is
      removing from each part. */
  lemma {:induction false} RemoveAppend(a: string, b: string, c: char)
    ensures Remove(a + b, c) == Remove(a, c) + Remove(b, c)
  {
    if a == [] {
      assert a + b == b;
    } else {
      assert (a + b)[0] == a[0] && (a + b)[1..] == a[1..] + b;
      RemoveAppend(a[1..], b, c);
      var head := if a[0] == c then [] else [a[0]];
      Assoc(head, Remove(a[1..], c), Remove(b, c));
    }
  }

  /** Deleting every `\n` and then every `\r` does not see a line break
      that was there to begin with. */
  lemma RemoveBreaksDrop(a: string, c: char, b: string)
    requires c == '\n' || c == '\r'
    ensures Remove(Remove(a + [c] + b, '\n'), '\r') == Remove(Remove(a + b, '\n'), '\r')
  {
    RemoveAppend(a + [c], b, '\n');
    RemoveAppend(a, [c], '\n');
    RemoveAppend(a, b, '\n');
    var a1 := Remove(a, '\n');
    var b1 := Remove(b, '\n');
    var c1 := Remove([c], '\n');
    assert Remove(a + [c] + b, '\n') == a1 + c1 + b1;
    RemoveAppend(a1 + c1, b1, '\r');
    RemoveAppend(a1, c1, '\r');
    RemoveAppend(a1, b1, '\r');
    assert Remove(c1, '\r') == [];
    assert Remove(a1 + c1, '\r') == Remove(a1, '\r');
  }

  lemma RemoveContents(s: string, c: char)
    ensures c !in Remove(s, c)
    ensures forall x | x in Remove(s, c) :: x in s
    ensures |Remove(s, c)| <= |s|
  {
    var r := Remove(s, c);
    assert multiset(r)[c] == 0;
    forall x | x in r ensures x in s {
      assert x in multiset(r);
    }
    assert |multiset(r)| <= |multiset(s)|;
  }

  /** The characters of `s` that are not whitespace, in order. */
  function Visible(s: string): (r: string)
    ensures |r| <= |s|
  {
    if s == [] then []
    else (if IsSpace(s[0]) then [] else [s[0]]) + Visible(s[1..])
  }

  lemma {:induction false} VisibleAppend(a: string, b: string)
    ensures Visible(a + b) == Visible(a) + Visible(b)
  {
    if a != [] {
      assert (a + b)[0] == a[0] && (a + b)[1..] == a[1..] + b;
      VisibleAppend(a[1..], b);
    } else {
      assert a + b == b;
    }
  }

  lemma {:induction false} VisibleOfSpace(s: string)
    requires SpaceBetween(s, 0, |s|)
    ensures Visible(s) == []
  {
    if s != [] {
      assert SpaceBetween(s[1..], 0, |s| - 1) by {
        forall m | 0 <= m < |s| - 1 ensures IsSpace(s[1..][m]) {
          assert s[1..][m] == s[m + 1];
        }
      }
      VisibleOfSpace(s[1..]);
    }
  }

  /** `strip()` removes whitespace only. */
  lemma StripKeepsText(c: string)
    ensures Visible(Strip(c)) == Visible(c)
  {
    var i := StripIsSlice(c);
    var j := i + |Strip(c)|;
    Split3(c, i, j);
    assert c == c[..i] + Strip(c) + c[j..];
    assert SpaceBetween(c[..i], 0, i) by {
      forall m | 0 <= m < i ensures IsSpace(c[..i][m]) { assert c[..i][m] == c[m]; }
    }
    assert SpaceBetween(c[j..], 0, |c| - j) by {
      forall m | 0 <= m < |c| - j ensures IsSpace(c[j..][m]) { assert c[j..][m] == c[j + m]; }
    }
    VisibleOfSpace(c[..i]);
    VisibleOfSpace(c[j..]);
    VisibleAppend(c[..i] + Strip(c), c[j..]);
    VisibleAppend(c[..i], Strip(c));
  }

  /** Deleting a whitespace character keeps the visible text. */
  lemma {:induction false} RemoveKeepsText(s: string, c: char)
    requires IsSpace(c)
    ensures Visible(Remove(s, c)) == Visible(s)
  {
    if s != [] {
      var head := if s[0] == c then [] else [s[0]];
      assert Remove(s, c) == head + Remove(s[1..], c);
      VisibleAppend(head, Remove(s[1..], c));
      RemoveKeepsText(s[1..], c);
      assert s == [s[0]] + s[1..];
      VisibleAppend([s[0]], s[1..]);
    }
  }

  /** Python's `s.startswith(p)`. */
  predicate StartsWith(s: string, p: string) {
    |p| <= |s| && s[..|p|] == p
  }

  /** Python's `p in s` for strings: `p` occurs somewhere in `s`. */
  predicate Contains(s: string, p: string) {
    exists i | 0 <= i <= |s| :: StartsWith(s[i..], p)
  }

  /** Python's `sep.join(parts)`. */
  function Join(sep: string, parts: seq<string>): string {
    if parts == [] then []
    else if |parts| == 1 then parts[0]
    else parts[0] + sep + Join(sep, parts[1..])
  }

  /** Every part occurs in the joined string. */
  lemma {:induction false} JoinContains(sep: string, parts: seq<string>)
    ensures forall i | 0 <= i < |parts| :: Contains(Join(sep, parts), parts[i])
  {
    if |parts| == 1 {
      assert StartsWith(parts[0][0..], parts[0]);
    } else if |parts| > 1 {
      var head := parts[0] + sep;
      var rest := Join(sep, parts[1..]);
      var whole := Join(sep, parts);
      assert whole == head + rest;
      JoinContains(sep, parts[1..]);
      assert StartsWith(whole[0..], parts[0]);
      forall i | 1 <= i < |parts|
        ensures Contains(whole, parts[i])
      {
        assert Contains(rest, parts[1..][i - 1]);
        var j :| 0 <= j <= |rest| && StartsWith(rest[j..], parts[i]);
        assert whole[|head| + j..] == rest[j..];
      }
    }
  }

  function DigitChar(d: nat): char
    requires d < 10
  {
    "0123456789"[d]
  }

  /** Python's `str(n)` / `f"{n}"` for a non-negative integer. */
  function Decimal(n: nat): (r: string)
    ensures r != []
    ensures forall k | 0 <= k < |r| :: '0' <= r[k] <= '9'
  {
    if n < 10 then [DigitChar(n)] else Decimal(n / 10) + [DigitChar(n % 10)]
  }

  /** Reads a run of ASCII digits back as a number. */
  function DecimalValue(s: string): nat
    requires forall k | 0 <= k < |s| :: '0' <= s[k] <= '9'
  {
    if s == [] then 0
    else DecimalValue(s[..|s| - 1]) * 10 + (s[|s| - 1] as int - '0' as int)
  }

  /** `Decimal` loses nothing: reading it back gives the number. */
  lemma {:induction false} DecimalRoundTrip(n: nat)
    ensures DecimalValue(Decimal(n)) == n
  {
    if n >= 10 {
      var d := Decimal(n);
      assert d[..|d| - 1] == Decimal(n / 10);
      DecimalRoundTrip(n / 10);
    }
  }
}
